=== FILE: README.md ===
# apk-disguise-pro in Dafny

apk-disguise-pro repackages an Android APK under a package name that a target
device's installer whitelists, and then optionally installs it. Its backend is
a set of Tauri commands in `src-tauri/src/lib.rs`, and each command shells out
to `adb`, apktool, zipalign or apksigner. This project models the logic around
those tool calls as pure functions. The tools' exit statuses and output text
are inputs to these functions.

- `Devices` (devices.dfy): `get_devices` parses `adb devices -l` output into
  device serials. `uninstall_app` reads the result of `pm uninstall`.
- `Prefixes` (prefixes.dfy): `scan_trusted_prefixes`. It counts `package:` lines
  by their first two dot-separated segments. Then it keeps non-system prefixes
  seen at least twice, sorts them by count (descending), and puts the two
  recommended prefixes in front.
- `Apps` (apps.dfy): `get_installed_apps`. It parses `pm list packages -f` and
  `-s` into `AppInfo` records, derives display names from the last package
  segment, and sorts the records stably by lower-cased name.
- `Naming` (naming.dfy): the new package name `process_apk_full` composes. This
  is the custom suffix or one derived from the file stem, after the chosen prefix.
- `Manifest` (manifest.dfy): the manifest patch. It is the first-match
  replacement of `package="[^"]+"`, with the regex crate's `$` expansion of the
  replacement text. If there is no `<uses-sdk`, a `<uses-sdk>` line is inserted
  before the first `<application`.
- `Pipeline` (pipeline.dfy): `process_apk_full` as a total function. Its inputs
  are the request and the outcome of every tool run and file operation. It
  returns the command's answer and the list of effects it caused. The function
  is proved equal to a reference that runs the stages in order and stops at the
  first one that does not pass.
- Shared pieces:
  - `Basics` and `Commands` (basics.dfy): `Option`, `Result`, and the outcome
    of running a tool.
  - `Text` (text.dfy): Rust's string operations on ASCII text. These are
    `lines`, `split`, `split_whitespace`, `trim`, `find`, `contains` and
    `to_lowercase`.
  - `Sorting` (sorting.dfy): the stable sort `sort_by` performs.

## Model

| member | source | states |
|---|---|---|
| Devices.ParseDevices | src-tauri/src/lib.rs:47-56 | The header line is skipped, so there is at most one device per remaining line. Every entry is a non-empty token without whitespace. |
| Devices.DevicesOfListing | src-tauri/src/lib.rs:47-56 | For a listing with one line per attached device, each serial padded to adb's 22-column field and followed by a space, the serials come back in listing order, one for each device whose line mentions "device". |
| Devices.AllOnline | src-tauri/src/lib.rs:48-55 | When every device is online (its state is `device`, alone or followed by description fields), the parse returns every serial in order. |
| Devices.GetDevices | src-tauri/src/lib.rs:41-58 | An error exactly when adb could not be started. Otherwise, whatever the exit status, the serials parsed from stdout. |
| Devices.UninstallApp | src-tauri/src/lib.rs:165-172 | An error exactly when adb could not be started. Otherwise true exactly when "Success" occurs somewhere in stdout. |
| Devices.UninstallIgnoresNameAndStatus | src-tauri/src/lib.rs:165-172 | The answer depends neither on the package name nor on the exit status: there is no validation. |
| Prefixes.LinePrefix | src-tauri/src/lib.rs:73-76 | A line gives a prefix exactly when it starts with "package:" and the rest holds a '.'. The prefix is then the first two segments joined by '.'. |
| Prefixes.CountPrefixes | src-tauri/src/lib.rs:70-80 | The map holds exactly the prefixes seen at least once, each mapped to the number of lines that give it. |
| Prefixes.NonContributingLine | src-tauri/src/lib.rs:73-75 | A line without "package:" or without a second segment changes no count. |
| Prefixes.ObservedComplete | src-tauri/src/lib.rs:83-87 | Every prefix seen at least twice that is not a system prefix is kept by the filter. |
| Prefixes.ObservedDistinct | src-tauri/src/lib.rs:83-87 | The entries taken from the map carry distinct prefixes. |
| Prefixes.NonIncreasing | src-tauri/src/lib.rs:89 | Sorted by count descending means counts never increase along the list. |
| Prefixes.Rank | src-tauri/src/lib.rs:82-91 | Entry 0 is cn.chinapost (999, recommended) and entry 1 is com.nlscan (100, recommended). Every later entry is a device_scan entry with its count, seen at least twice and not a system prefix. Every such prefix appears, once, in non-increasing count order. |
| Prefixes.RecommendedNotDeduplicated | src-tauri/src/lib.rs:83-91 | A device with two or more cn.chinapost packages gets cn.chinapost both as entry 0 and again as a device_scan entry, because nothing is deduplicated. |
| Prefixes.IterationOrder | src-tauri/src/lib.rs:83-84 | Some enumeration of the map's keys, each exactly once. The order itself is left open. |
| Prefixes.ScanTrustedPrefixes | src-tauri/src/lib.rs:63-94 | An error exactly when adb could not be started. Otherwise the ranked list of the prefixes the listing offers, with the two recommended entries first. |
| Apps.DisplayName | src-tauri/src/lib.rs:134-144 | The display name holds no '_' and is at least as long as the segment. |
| Apps.LastSegmentOfJoin | src-tauri/src/lib.rs:131-133 | The segment used is the last '.'-separated part of the package name. |
| Apps.CamelCaseName | src-tauri/src/lib.rs:137-142 | Camel-case words written together come out separated by single spaces. The first word may be lower-case ("myCoolApp" reads "my Cool App"); each later word is capitalised. |
| Apps.SnakeCaseName | src-tauri/src/lib.rs:143 | Lower-case words joined by '_' come out separated by spaces. |
| Apps.PackageAfterPath | src-tauri/src/lib.rs:126-127 | A package name is found exactly when the line holds a '='. It is the trimmed text after the last '='. |
| Apps.NameAfterPath | src-tauri/src/lib.rs:126-127 | When no '=' follows the one after the path, the name is the trimmed text after that '='. The path itself may hold '='. |
| Apps.PaddedNameTrimmed | src-tauri/src/lib.rs:127 | A name with a space before it and a space and CR after it comes back without them. |
| Apps.AppOf | src-tauri/src/lib.rs:125-152 | A record exactly for "package:" lines with a '=' after the prefix. Its package name is the one found after the last '=', and its app name is derived from it. Its version is empty, and it is a system app exactly when its name is in the system set. |
| Apps.AppOfPathLine | src-tauri/src/lib.rs:125-152 | For the line "package:<path>=<name>" the record is the name, the name's display name, an empty version and system membership. |
| Apps.AppsOfPathLines | src-tauri/src/lib.rs:123-155 | One record per listing line, in order. |
| Apps.SystemOfNameLines | src-tauri/src/lib.rs:115-119 | The `-s` listing gives exactly the set of names it lists. |
| Apps.ListApps | src-tauri/src/lib.rs:121-158 | The result is a permutation of the parsed records, sorted by lower-cased display name. |
| Apps.ListAppsOrdered | src-tauri/src/lib.rs:158 | Every earlier record's lower-cased name is not after any later one's, for all pairs of positions. |
| Apps.LexNotAfter | src-tauri/src/lib.rs:158 | The string order's "not after" relation is transitive, as `Ord` on `String` is. |
| Apps.ListAppsStable | src-tauri/src/lib.rs:158 | Records with equal lower-cased names keep their listing order. |
| Apps.GetInstalledApps | src-tauri/src/lib.rs:98-161 | An error exactly when either adb run could not be started, with the first failure's reason. Otherwise the sorted permutation of the parsed records. |
| Apps.InstalledAppsOfListings | src-tauri/src/lib.rs:98-161 | For listings written from a set of installed packages and a set of system names, the result holds exactly one record per installed package. |
| Sorting.SortBy | src-tauri/src/lib.rs:158 | The result is sorted by the key and is a permutation of the input. |
| Sorting.SortStable | src-tauri/src/lib.rs:158 | For every key, the elements carrying it keep their relative order. |
| Naming.CleanStem | src-tauri/src/lib.rs:225 | The cleaned stem holds only lower-case letters and digits and is no longer than the stem. |
| Naming.CleanStemChar | src-tauri/src/lib.rs:225 | A single character cleans to itself lower-cased when it is a letter or digit, and to nothing otherwise. With CleanStemAppend this fixes the cleaned stem of every text. |
| Naming.CleanStemMyApp | src-tauri/src/lib.rs:225 | Upper-case letters are kept lower-cased, not dropped: "MyApp" cleans to "myapp". |
| Naming.CleanStemAppend | src-tauri/src/lib.rs:225 | Cleaning works character by character: it distributes over concatenation. |
| Naming.CleanStemIdempotent | src-tauri/src/lib.rs:225 | Cleaning a cleaned stem changes nothing. |
| Naming.Truncated | src-tauri/src/lib.rs:226 | A prefix of the text, of length 12 or the whole text when it is shorter. |
| Naming.DerivedSuffix | src-tauri/src/lib.rs:224-227 | The derived suffix is clean, at most 12 long, and a prefix of the cleaned stem. It is the whole cleaned stem unless it is 12 long. |
| Naming.Suffix | src-tauri/src/lib.rs:222-228 | A non-empty custom suffix is used as given. Otherwise the suffix is the one derived from the stem, so it is clean and at most 12 long. |
| Naming.NewPackage | src-tauri/src/lib.rs:229 | The name is the prefix, a '.', and the suffix. |
| Naming.EmptyCustomIsNone | src-tauri/src/lib.rs:222-224 | An empty custom suffix gives the same name as none. |
| Naming.DerivedSuffixIsLastSegment | src-tauri/src/lib.rs:222-229 | A derived suffix holds no '.', so it is exactly what follows the prefix and its '.'. |
| Naming.RenamedPackageCounted | src-tauri/src/lib.rs:72-77 | A renamed package a.b.suffix is counted under the prefix a.b by a later scan. |
| Naming.BlankStemTrailingDot | src-tauri/src/lib.rs:225-229 | A stem with no letter or digit gives the name "prefix." because there is no fallback. |
| Naming.TruncatedAsWritten | src-tauri/src/lib.rs:226 | When the byte slice is defined, it is a prefix of the cleaned text. |
| Naming.TruncationAgreesOnAscii | src-tauri/src/lib.rs:226 | On ASCII text the byte slice is the 12-character truncation. |
| Naming.MixedScriptStemPanics | src-tauri/src/lib.rs:225-226 | For "myapp应用宝" the byte slice at 12 falls inside a character, while the 12-character truncation keeps the whole text. |
| Manifest.MatchValue | src-tauri/src/lib.rs:231 | A matched attribute value is non-empty and holds no '"'. |
| Manifest.FirstMatch | src-tauri/src/lib.rs:231-232 | The leftmost position where `package="[^"]+"` matches, or none anywhere. |
| Manifest.InterpolatePlain | src-tauri/src/lib.rs:232 | Replacement text without '$' is inserted as it is. |
| Manifest.DollarReferences | src-tauri/src/lib.rs:232 | In replacement text, `$0` stands for the match, `$1` for nothing and `$$` for '$'. |
| Manifest.ReplacedText | src-tauri/src/lib.rs:231-232 | For any name without '$', only the first match is rewritten, to the new attribute. The text before it and after it is kept. |
| Manifest.ReplaceGivesAttr | src-tauri/src/lib.rs:231-232 | After the replacement, the first match is the new attribute, at the old match's position. |
| Manifest.SdkPos | src-tauri/src/lib.rs:234-235 | An insertion point is found only when there is no `<uses-sdk`, and it is at a '<'. |
| Manifest.SdkInsertion | src-tauri/src/lib.rs:234-236 | Insertion happens exactly when `<uses-sdk` is absent and `<application` is present, and it goes at the first `<application`. |
| Manifest.MatchAfterSdk | src-tauri/src/lib.rs:236 | Inserting the line shifts every match after it by the line's length and changes none. |
| Manifest.PatchSetsPackage | src-tauri/src/lib.rs:231-238 | A manifest with a package attribute declares the new package after the patch. |
| Manifest.PatchWithoutPackage | src-tauri/src/lib.rs:231-238 | A manifest without one is left alone, apart from the `<uses-sdk` insertion. |
| Manifest.PatchEnsuresSdk | src-tauri/src/lib.rs:234-238 | After the patch the text contains `<uses-sdk` exactly when the replaced text already had one or had an `<application` to put it before. |
| Manifest.PatchIdempotent | src-tauri/src/lib.rs:231-238 | Patching twice with the same package gives the same text as patching once. |
| Manifest.UnclosedAttributeRepatched | src-tauri/src/lib.rs:231-238 | For `package="<application>` the second patch differs from the first, so idempotence needs a package attribute. |
| Pipeline.JoinPath | src-tauri/src/lib.rs:193-195 | A joined path ends with the file name. |
| Pipeline.OutputPathsDistinct | src-tauri/src/lib.rs:193-195 | The rebuilt, aligned and final paths are pairwise different. |
| Pipeline.Process | src-tauri/src/lib.rs:200-203 | The decompiler is always the first thing run. |
| Pipeline.ProcessIsReference | src-tauri/src/lib.rs:189-348 | The command equals the reference: stages in order, stopped by the first that does not pass, then the optional install. |
| Pipeline.FirstStop | src-tauri/src/lib.rs:205-298 | The first stage that does not pass, with every earlier stage passing. None when all pass. |
| Pipeline.NoStopMeansAllPassed | src-tauri/src/lib.rs:200-299 | No stage stops exactly when every tool succeeded and the manifest was read and written. |
| Pipeline.FirstFailureDecides | src-tauri/src/lib.rs:200-298 | The first failing stage decides the answer. It is an error exactly for a manifest read or write failure or a tool that could not start. Otherwise it is unsuccessful with that stage's tag: decompile and rebuild report no path, zipalign the rebuilt file and sign the aligned file. Nothing after that stage runs. |
| Pipeline.AllStagesPassed | src-tauri/src/lib.rs:305-348 | When every stage passes the answer names the signed file, with step "install" or "complete". It succeeds exactly when no install was wanted or the install exited with success and printed "Success". |
| Pipeline.InstallOnlyWhenWanted | src-tauri/src/lib.rs:306-310 | An install happens exactly when asked for with a device and after every stage passed. It installs the signed file on that device, last. |
| Pipeline.InstallIgnoredUnlessWanted | src-tauri/src/lib.rs:306-307 | When no install is wanted, the install outcome cannot change anything. |
| Pipeline.WrittenManifestIsPatched | src-tauri/src/lib.rs:217-240 | The only text written back is the read manifest patched with the new package name, as the third effect. |
| Pipeline.ProcessEffectAt | src-tauri/src/lib.rs:200-310 | Every effect other than the install is the effect of the stage at that position, and each one is reached only after every earlier stage passed. |
| Pipeline.LaterOutcomesIgnored | src-tauri/src/lib.rs:200-298 | Outcomes of stages after the first failure cannot change the answer or the effects. |

## Left out

- Starting processes. The exit status, stdout and stderr of each `adb`, java,
  zipalign and apksigner run are inputs (`Commands.Run`). A failure to start is
  the `SpawnFailed` case. `check_adb` (lib.rs:31-37) is only such a call, so it
  is not modelled.
- Tool arguments, such as the fixed signer key alias and password and the
  zipalign and apktool flags. They only reach opaque tools.
- The file system. Removing the work directory and the intermediate APKs
  (lib.rs:197, 301-303) has no effect on the answer and is not modelled. The
  manifest read and write are effects whose outcomes are inputs.
  `resolve_tool_paths` only probes the file system and is not modelled.
- The temporary directory's location, `Path::file_stem` and `Path::parent`. The
  stem and parent directory are part of the request. `Path::join` is written as
  joining with '/'.
- Tauri wiring: `run()`, plugins, `async` and the serde derives.
- Unicode. Letters, case, whitespace and alphanumeric tests are ASCII only, and
  `from_utf8_lossy` is taken as already applied. The one place where it matters
  is the byte slice of the suffix, shown under Findings.
- The `i32` prefix counts are unbounded integers. A device never lists 2^31
  packages.
- HashMap iteration order. The scan chooses some enumeration of the counted
  prefixes, so the order among equal counts is unspecified, as it is in Rust.
- Message text. The Chinese messages are the `Message` datatype, which carries
  the tool output or package name each message includes.
- The regex engine. The single pattern `package="[^"]+"` is a hand-written
  leftmost scan. The replacement text's `$` expansion follows the regex crate's
  documented rules. The crate is not part of this model.
- Behaviours a reader might expect that this code does not have; the model
  follows the code:
  - no fallback suffix for an empty stem (Naming.BlankStemTrailingDot);
  - no validation of package names, nor of uninstall targets;
  - no deduplication of the recommended prefixes against observed ones;
  - `isSystem` taken from the `-s` listing.
- A failure to start `adb install` is reported as an unsuccessful `Ok` answer
  with step "install", not as an error (lib.rs:331-338). The model does the same.
- Manifest.PatchIdempotent: proved only for a manifest that already has a
  package attribute and a package name of letters, digits, '_' and '.'.
  Without an attribute, a dangling `package="` is closed by the quotes of the
  inserted `<uses-sdk` line (Manifest.UnclosedAttributeRepatched). A name
  holding '$' is silently rewritten by the first patch through the `$`
  expansion; a reference that expands to text, such as `$0` (the current
  match), can then change the text on the second patch, while one that
  expands to nothing, such as `$b`, does not by itself. A name holding '"' ends
  the attribute early, and one holding `<application` can receive the
  `<uses-sdk` line on the second patch.
- Manifest.ReplaceGivesAttr: stated for names of letters, digits, '_' and '.'.
  A '$' in the name is expanded by the regex crate's replacement syntax, so
  the written attribute is not `package="<name>"`; a '"' in the name ends the
  attribute value early, so the first match afterwards is shorter than the
  written attribute.
- Manifest.PatchSetsPackage: stated for names of letters, digits, '_' and '.',
  for the reasons under Manifest.ReplaceGivesAttr; besides, a name holding
  `<application` moves the point where the `<uses-sdk` line goes, which may
  then land inside the new attribute.
- Devices.DevicesOfListing: stated for listings whose serials and details hold
  no line breaks and whose serial is a single word, as adb prints them. The
  listing is the `-l` form (serial left-aligned in 22 columns, then a space);
  the tab-separated form without `-l` is not rendered, since the backend always
  passes `-l`.

## Findings

| source | as written | input that shows it | evidently intended | confidence | as-written member | corrected member |
|---|---|---|---|---|---|---|
| src-tauri/src/lib.rs:226 | `clean[..12]` slices the cleaned stem at byte 12, and Rust's `is_alphanumeric` keeps non-ASCII letters | the stem "myapp应用宝" cleans to 14 bytes; byte 12 is inside "宝", so the slice panics | keep the first 12 characters | not executed | Naming.TruncatedAsWritten (shown by Naming.MixedScriptStemPanics) | Naming.Truncated (used by Naming.DerivedSuffix) |

=== FILE: apps.dfy ===
/** `get_installed_apps`: reads the `pm list packages -f` listing (APK path and
    package name per line) and the `pm list packages -s` listing (system
    packages), derives a readable name from the last segment of each package
    name, and sorts the apps by that name, ignoring case. */
module Apps {
  import opened Basics
  import opened Text
  import opened Sorting
  import opened Commands

  datatype AppInfo = AppInfo(packageName: string, appName: string, version: string, isSystem: bool)

  // ---------------------------------------------------------------------------
  // Readable names
  // ---------------------------------------------------------------------------

  /** Puts a space in front of every uppercase letter of `t`. */
  function SpaceUpper(t: string): (r: string)
    ensures |r| >= |t|
  {
    if t == [] then []
    else (if IsUpper(t[0]) then [' ', t[0]] else [t[0]]) + SpaceUpper(t[1..])
  }

  /** The camel-case step: a space before every uppercase letter but the first character. */
  function Spaced(s: string): (r: string)
    ensures |r| >= |s|
  {
    if s == [] then [] else [s[0]] + SpaceUpper(s[1..])
  }

  /** `str::replace` of one character by another. */
  function ReplaceChar(s: string, a: char, b: char): (r: string)
    ensures |r| == |s|
    ensures forall i :: 0 <= i < |s| ==> r[i] == (if s[i] == a then b else s[i])
  {
    seq(|s|, i requires 0 <= i < |s| => if s[i] == a then b else s[i])
  }

  /** The readable form of a name segment: camel case and underscores become spaces. */
  function DisplayName(segment: string): (r: string)
    ensures '_' !in r
    ensures |r| >= |segment|
  {
    ReplaceChar(Spaced(segment), '_', ' ')
  }

  /** `split('.').last()`: the text after the last '.', or all of it. */
  function LastSegment(pkg: string): (r: string)
    ensures '.' !in r
  {
    var parts := Split(pkg, '.');
    parts[|parts| - 1]
  }

  /** The name shown for a package. `split` always yields a piece, so the
      source's fallback to the whole package name never applies. */
  function AppName(pkg: string): string {
    DisplayName(LastSegment(pkg))
  }

  /** The last segment of a dotted name is its last dot-free piece. */
  lemma {:induction false} LastSegmentOfJoin(parts: seq<string>)
    requires |parts| >= 1
    requires forall i :: 0 <= i < |parts| ==> '.' !in parts[i]
    ensures LastSegment(Join(parts, '.')) == parts[|parts| - 1]
  {
    SplitOfJoin(parts, '.');
  }

  function Concat(ws: seq<string>): string {
    if ws == [] then [] else ws[0] + Concat(ws[1..])
  }

  /** Every word preceded by a space. */
  function SpaceEach(ws: seq<string>): string {
    if ws == [] then [] else [' '] + ws[0] + SpaceEach(ws[1..])
  }

  /** A capitalised word: an uppercase letter followed by characters that are
      neither uppercase nor '_'. */
  predicate IsCapWord(w: string) {
    w != [] && IsUpper(w[0]) && forall k :: 1 <= k < |w| ==> !IsUpper(w[k]) && w[k] != '_'
  }

  /** A word that may open a camel-case segment: any first character but '_',
      then characters that are neither uppercase nor '_' ("my" in "myCoolApp"). */
  predicate IsHeadWord(w: string) {
    w != [] && w[0] != '_' && forall k :: 1 <= k < |w| ==> !IsUpper(w[k]) && w[k] != '_'
  }

  predicate NoUpper(s: string) {
    forall k :: 0 <= k < |s| ==> !IsUpper(s[k])
  }

  lemma {:induction false} SpaceUpperAppend(a: string, b: string)
    ensures SpaceUpper(a + b) == SpaceUpper(a) + SpaceUpper(b)
  {
    if a != [] {
      assert (a + b)[0] == a[0];
      assert (a + b)[1..] == a[1..] + b;
      SpaceUpperAppend(a[1..], b);
    } else {
      assert a + b == b;
    }
  }

  lemma {:induction false} SpaceUpperPlain(t: string)
    requires NoUpper(t)
    ensures SpaceUpper(t) == t
  {
    if t != [] {
      SpaceUpperPlain(t[1..]);
    }
  }

  lemma {:induction false} ReplaceAbsent(s: string, a: char, b: char)
    requires a !in s
    ensures ReplaceChar(s, a, b) == s
  {
  }

  /** A capitalised word gets exactly one space, in front. */
  lemma {:induction false} CapWordSpaced(w: string)
    requires IsCapWord(w)
    ensures SpaceUpper(w) == [' '] + w
    ensures '_' !in w
  {
    assert NoUpper(w[1..]) by {
      forall k | 0 <= k < |w[1..]| ensures !IsUpper(w[1..][k]) { assert w[1..][k] == w[k + 1]; }
    }
    SpaceUpperPlain(w[1..]);
    assert w == [w[0]] + w[1..];
    assert '_' !in w by {
      forall k | 0 <= k < |w| ensures w[k] != '_' { }
    }
  }

  /** Spacing a run of capitalised words puts a space before each of them. */
  lemma {:induction false} SpaceUpperCaps(ws: seq<string>)
    requires forall i :: 0 <= i < |ws| ==> IsCapWord(ws[i])
    ensures SpaceUpper(Concat(ws)) == SpaceEach(ws)
    ensures '_' !in SpaceEach(ws)
  {
    if ws != [] {
      var w := ws[0];
      SpaceUpperCaps(ws[1..]);
      SpaceUpperAppend(w, Concat(ws[1..]));
      CapWordSpaced(w);
    }
  }

  /** A camel-case segment reads as its words separated by spaces:
      "MyCoolApp" becomes "My Cool App" and "myCoolApp" becomes "my Cool App". */
  lemma {:induction false} CamelCaseName(ws: seq<string>)
    requires |ws| >= 1
    requires IsHeadWord(ws[0])
    requires forall i :: 1 <= i < |ws| ==> IsCapWord(ws[i])
    ensures DisplayName(Concat(ws)) == Join(ws, ' ')
  {
    var w := ws[0];
    var rest := ws[1..];
    SpacedCamel(ws);
    JoinSpaceEach(ws);
    assert '_' !in w by {
      forall k | 0 <= k < |w| ensures w[k] != '_' { }
    }
    ReplaceAbsent(w + SpaceEach(rest), '_', ' ');
  }

  /** The camel-case step leaves the head word alone and puts a space before
      each later word. */
  lemma {:induction false} SpacedCamel(ws: seq<string>)
    requires |ws| >= 1
    requires IsHeadWord(ws[0])
    requires forall i :: 1 <= i < |ws| ==> IsCapWord(ws[i])
    ensures Spaced(Concat(ws)) == ws[0] + SpaceEach(ws[1..])
    ensures '_' !in SpaceEach(ws[1..])
  {
    var w := ws[0];
    var rest := ws[1..];
    var c := Concat(ws);
    SpaceUpperCaps(rest);
    assert c == w + Concat(rest);
    assert c[0] == w[0] && c[1..] == w[1..] + Concat(rest);
    SpaceUpperAppend(w[1..], Concat(rest));
    assert NoUpper(w[1..]) by {
      forall k | 0 <= k < |w[1..]| ensures !IsUpper(w[1..][k]) { assert w[1..][k] == w[k + 1]; }
    }
    SpaceUpperPlain(w[1..]);
    assert Spaced(c) == [w[0]] + (w[1..] + SpaceEach(rest));
    assert w == [w[0]] + w[1..];
  }

  lemma {:induction false} JoinSpaceEach(ws: seq<string>)
    requires |ws| >= 1
    ensures Join(ws, ' ') == ws[0] + SpaceEach(ws[1..])
  {
    if |ws| > 1 {
      JoinSpaceEach(ws[1..]);
      assert ws[1..][1..] == ws[2..];
    }
  }

  /** Joining words that have no uppercase letter keeps that property. */
  lemma {:induction false} NoUpperJoin(ws: seq<string>, c: char)
    requires |ws| >= 1 && !IsUpper(c)
    requires forall i :: 0 <= i < |ws| ==> NoUpper(ws[i])
    ensures NoUpper(Join(ws, c))
  {
    if |ws| > 1 {
      NoUpperJoin(ws[1..], c);
      var j := ws[0] + [c] + Join(ws[1..], c);
      forall k | 0 <= k < |j| ensures !IsUpper(j[k]) {
        if k > |ws[0]| { assert j[k] == Join(ws[1..], c)[k - |ws[0]| - 1]; }
      }
    }
  }

  /** Replacing the separator of a join of separator-free words changes the separator. */
  lemma {:induction false} ReplaceJoin(ws: seq<string>, a: char, b: char)
    requires |ws| >= 1
    requires forall i :: 0 <= i < |ws| ==> a !in ws[i]
    ensures ReplaceChar(Join(ws, a), a, b) == Join(ws, b)
  {
    if |ws| == 1 {
      ReplaceAbsent(ws[0], a, b);
    } else {
      ReplaceJoin(ws[1..], a, b);
      var j := Join(ws, a);
      assert j == ws[0] + [a] + Join(ws[1..], a);
      var r := ReplaceChar(j, a, b);
      var e := ws[0] + [b] + Join(ws[1..], b);
      assert |r| == |e|;
      forall k | 0 <= k < |r| ensures r[k] == e[k] {
        if k < |ws[0]| {
          assert j[k] == ws[0][k];
        } else if k > |ws[0]| {
          assert j[k] == Join(ws[1..], a)[k - |ws[0]| - 1];
          assert e[k] == Join(ws[1..], b)[k - |ws[0]| - 1];
        }
      }
    }
  }

  /** A snake-case segment reads as its words separated by spaces:
      "my_cool_app" becomes "my cool app". */
  lemma {:induction false} SnakeCaseName(ws: seq<string>)
    requires |ws| >= 1
    requires forall i :: 0 <= i < |ws| ==> NoUpper(ws[i]) && '_' !in ws[i]
    ensures DisplayName(Join(ws, '_')) == Join(ws, ' ')
  {
    var j := Join(ws, '_');
    NoUpperJoin(ws, '_');
    if j != [] {
      assert NoUpper(j[1..]) by {
        forall k | 0 <= k < |j[1..]| ensures !IsUpper(j[1..][k]) { assert j[1..][k] == j[k + 1]; }
      }
      SpaceUpperPlain(j[1..]);
      assert Spaced(j) == j;
    }
    ReplaceJoin(ws, '_', ' ');
  }

  // ---------------------------------------------------------------------------
  // Parsing the listings
  // ---------------------------------------------------------------------------

  /** The names in a `pm list packages -s` listing, trimmed. */
  function SystemPackages(lines: seq<string>): set<string> {
    set l | l in lines && StartsWith(l, "package:") :: Trim(l[8..])
  }

  /** The package name after the last '=' of a `-f` line's content, trimmed. */
  function PackageAfterPath(content: string): (r: Option<string>)
    ensures r.Some? <==> '=' in content
    ensures r.Some? ==> exists e :: 0 <= e < |content| && content[e] == '=' && '=' !in content[e + 1..]
                                   && r.value == Trim(content[e + 1..])
  {
    match LastIndexOf(content, '=')
    case None => None
    case Some(e) => Some(Trim(content[e + 1..]))
  }

  /** A record as the listing builds it: no version, and a system app exactly
      when its name is in the system set. */
  predicate Flagged(a: AppInfo, system: set<string>) {
    a.version == "" && (a.isSystem <==> a.packageName in system)
  }

  /** The app a line of the `-f` listing describes, if it is one. */
  function AppOf(line: string, system: set<string>): (r: Option<AppInfo>)
    ensures r.Some? <==> StartsWith(line, "package:") && '=' in line[8..]
    ensures r.Some? ==> Flagged(r.value, system)
    ensures r.Some? ==> PackageAfterPath(line[8..]) == Some(r.value.packageName)
                        && r.value.appName == AppName(r.value.packageName)
  {
    if StartsWith(line, "package:") then
      match PackageAfterPath(line[8..])
      case None => None
      case Some(pkg) => Some(AppInfo(pkg, AppName(pkg), "", pkg in system))
    else None
  }

  /** After the only '=' that follows the path comes the name, trimmed. */
  lemma {:induction false} NameAfterPath(path: string, rest: string)
    requires '=' !in rest
    ensures PackageAfterPath(path + "=" + rest) == Some(Trim(rest))
  {
    var c := path + "=" + rest;
    var e := |path|;
    assert c[e] == '=';
    assert c[e + 1..] == rest;
  }

  /** A word with a space before it and a space and a CR after it trims to itself. */
  lemma {:induction false} TrimPadded(name: string)
    requires IsWord(name)
    ensures Trim(" " + name + " \r") == name
  {
    var t := " " + name + " \r";
    assert t[1..] == name + " \r";
    assert LeadingSpaces(t[1..]) == 0;
    assert TrimStart(t) == name + " \r";
    var u := name + " \r";
    assert u[..|u| - 1] == name + " ";
    assert (name + " ")[..|name|] == name;
    assert UntrailedLength(name + " ") == |name|;
  }

  /** A name with whitespace around it, as a line ending in CR or padding can
      carry, comes back trimmed. */
  lemma {:induction false} PaddedNameTrimmed(path: string, name: string)
    requires IsWord(name) && '=' !in name
    ensures PackageAfterPath(path + "= " + name + " \r") == Some(name)
  {
    var rest := " " + name + " \r";
    assert path + "= " + name + " \r" == path + "=" + rest;
    assert '=' !in rest;
    NameAfterPath(path, rest);
    TrimPadded(name);
  }

  /** The apps of the listing, in listing order. */
  function AppsOf(lines: seq<string>, system: set<string>): (r: seq<AppInfo>)
    ensures |r| <= |lines|
    ensures forall i :: 0 <= i < |r| ==> Flagged(r[i], system)
  {
    if lines == [] then []
    else
      var rest := AppsOf(lines[1..], system);
      match AppOf(lines[0], system)
      case None => rest
      case Some(a) => [a] + rest
  }

  // ---------------------------------------------------------------------------
  // Ordering
  // ---------------------------------------------------------------------------

  /** `Ord` on strings: lexicographic on characters, a proper prefix first. */
  predicate LexLess(a: string, b: string) {
    b != [] && (a == [] || a[0] < b[0] || (a[0] == b[0] && LexLess(a[1..], b[1..])))
  }

  lemma {:induction false} LexLessAsym(a: string, b: string)
    ensures LexLess(a, b) ==> !LexLess(b, a)
  {
    if a != [] && b != [] && a[0] == b[0] {
      LexLessAsym(a[1..], b[1..]);
    }
  }

  lemma LexAsymmetric()
    ensures Asymmetric(LexLess)
  {
    forall a, b ensures LexLess(a, b) ==> !LexLess(b, a) {
      LexLessAsym(a, b);
    }
  }

  /** The sort key: the readable name in lower case. */
  function NameKey(a: AppInfo): string {
    ToLower(a.appName)
  }

  /** The listed apps sorted by name, ignoring case; equal names keep listing order. */
  function ListApps(allStdout: string, systemStdout: string): (r: seq<AppInfo>)
    ensures Sorted(r, NameKey, LexLess)
    ensures multiset(r) == multiset(AppsOf(Lines(allStdout), SystemPackages(Lines(systemStdout))))
  {
    LexAsymmetric();
    SortBy(AppsOf(Lines(allStdout), SystemPackages(Lines(systemStdout))), NameKey, LexLess)
  }

  /** Any two strings are equal or ordered one way. */
  lemma {:induction false} LexTotal(a: string, b: string)
    ensures a == b || LexLess(a, b) || LexLess(b, a)
  {
    if a != [] && b != [] && a[0] == b[0] {
      LexTotal(a[1..], b[1..]);
      if a[1..] == b[1..] {
        assert a == [a[0]] + a[1..] && b == [b[0]] + b[1..];
      }
    }
  }

  lemma {:induction false} LexTransitive(a: string, b: string, c: string)
    requires LexLess(a, b) && LexLess(b, c)
    ensures LexLess(a, c)
  {
    if a != [] && a[0] == b[0] && b[0] == c[0] {
      LexTransitive(a[1..], b[1..], c[1..]);
    }
  }

  /** "Not after" is transitive: `a <= b` and `b <= c` give `a <= c`. */
  lemma {:induction false} LexNotAfter(a: string, b: string, c: string)
    requires !LexLess(b, a) && !LexLess(c, b)
    ensures !LexLess(c, a)
  {
    if LexLess(c, a) {
      LexTotal(a, b);
      LexTotal(b, c);
      LexTransitive(a, b, c);
      LexLessAsym(a, c);
    }
  }

  /** In a list sorted by name, an earlier name is never after a later one. */
  lemma {:induction false} SortedPair(r: seq<AppInfo>, i: nat, j: nat)
    requires Sorted(r, NameKey, LexLess)
    requires i < j < |r|
    decreases j - i
    ensures !LexLess(NameKey(r[j]), NameKey(r[i]))
  {
    assert !LexLess(NameKey(r[j]), NameKey(r[j - 1]));
    if i < j - 1 {
      SortedPair(r, i, j - 1);
      LexNotAfter(NameKey(r[i]), NameKey(r[j - 1]), NameKey(r[j]));
    }
  }

  /** The listed apps are ordered by name across every pair of positions,
      not only neighbouring ones. */
  lemma {:induction false} ListAppsOrdered(allStdout: string, systemStdout: string)
    ensures var r := ListApps(allStdout, systemStdout);
      forall i, j :: 0 <= i < j < |r| ==> !LexLess(NameKey(r[j]), NameKey(r[i]))
  {
    var r := ListApps(allStdout, systemStdout);
    forall i, j | 0 <= i < j < |r| ensures !LexLess(NameKey(r[j]), NameKey(r[i])) {
      SortedPair(r, i, j);
    }
  }

  /** Apps whose names compare equal keep the order of the listing. */
  lemma {:induction false} ListAppsStable(allStdout: string, systemStdout: string, name: string)
    ensures Keep(ListApps(allStdout, systemStdout), NameKey, name)
         == Keep(AppsOf(Lines(allStdout), SystemPackages(Lines(systemStdout))), NameKey, name)
  {
    LexAsymmetric();
    SortStable(AppsOf(Lines(allStdout), SystemPackages(Lines(systemStdout))), NameKey, LexLess, name);
  }

  /** `get_installed_apps` given the outcomes of the two listings; a failure to
      start either command is the error. */
  function GetInstalledApps(all: Run, system: Run): (r: Result<seq<AppInfo>, string>)
    ensures r.Err? <==> all.SpawnFailed? || system.SpawnFailed?
    ensures all.SpawnFailed? ==> r == Err(all.reason)
    ensures all.Exited? && system.SpawnFailed? ==> r == Err(system.reason)
    ensures r.Ok? ==> Sorted(r.value, NameKey, LexLess)
    ensures r.Ok? ==> multiset(r.value) == multiset(AppsOf(Lines(all.stdout), SystemPackages(Lines(system.stdout))))
  {
    if all.SpawnFailed? then Err(all.reason)
    else if system.SpawnFailed? then Err(system.reason)
    else Ok(ListApps(all.stdout, system.stdout))
  }

  // ---------------------------------------------------------------------------
  // Listings as the package manager prints them
  // ---------------------------------------------------------------------------

  /** An installed package: where its APK lives and its name. */
  datatype Installed = Installed(path: string, pkg: string)

  /** A name as the package manager prints it: no whitespace, no '='. */
  predicate IsPackageName(n: string) {
    IsWord(n) && '=' !in n
  }

  predicate WellFormed(x: Installed) {
    '\n' !in x.path && IsPackageName(x.pkg)
  }

  function PathLine(x: Installed): string {
    "package:" + x.path + "=" + x.pkg
  }

  function PathLines(xs: seq<Installed>): (r: seq<string>)
    ensures |r| == |xs|
  {
    if xs == [] then [] else [PathLine(xs[0])] + PathLines(xs[1..])
  }

  function NameLines(names: seq<string>): (r: seq<string>)
    ensures |r| == |names|
  {
    if names == [] then [] else ["package:" + names[0]] + NameLines(names[1..])
  }

  /** What the listing of `xs` should yield: one app per package, in order. */
  function Expected(xs: seq<Installed>, system: set<string>): seq<AppInfo> {
    if xs == [] then []
    else [AppInfo(xs[0].pkg, AppName(xs[0].pkg), "", xs[0].pkg in system)] + Expected(xs[1..], system)
  }

  /** The last '=' of a path line is the one before the name, even when the
      path holds '=' itself. */
  lemma {:induction false} AppOfPathLine(x: Installed, system: set<string>)
    requires WellFormed(x)
    ensures AppOf(PathLine(x), system) == Some(AppInfo(x.pkg, AppName(x.pkg), "", x.pkg in system))
  {
    var line := PathLine(x);
    assert StartsWith(line, "package:");
    var content := line[8..];
    assert content == x.path + "=" + x.pkg;
    var e := |x.path|;
    assert content[e] == '=';
    var found := LastIndexOf(content, '=');
    assert found == Some(e);
    assert content[e + 1..] == x.pkg;
    TrimUnpadded(x.pkg);
  }

  lemma {:induction false} AppsOfPathLines(xs: seq<Installed>, system: set<string>)
    requires forall i :: 0 <= i < |xs| ==> WellFormed(xs[i])
    ensures AppsOf(PathLines(xs), system) == Expected(xs, system)
  {
    if xs != [] {
      AppOfPathLine(xs[0], system);
      AppsOfPathLines(xs[1..], system);
      AppsOfPathLinesCons(xs, system);
    }
  }

  /** The apps of a non-empty path listing: those of its first line, then the rest. */
  lemma {:induction false} AppsOfPathLinesCons(xs: seq<Installed>, system: set<string>)
    requires xs != []
    ensures AppsOf(PathLines(xs), system)
         == (match AppOf(PathLine(xs[0]), system) case None => [] case Some(a) => [a])
            + AppsOf(PathLines(xs[1..]), system)
  {
    var ls := PathLines(xs);
    assert ls[0] == PathLine(xs[0]);
    assert ls[1..] == PathLines(xs[1..]);
  }

  lemma {:induction false} SystemOfNameLines(names: seq<string>)
    requires forall i :: 0 <= i < |names| ==> IsWord(names[i])
    ensures SystemPackages(NameLines(names)) == set n | n in names
  {
    var ls := NameLines(names);
    forall n | n in names ensures n in SystemPackages(ls) {
      var i :| 0 <= i < |names| && names[i] == n;
      NameLineAt(names, i);
      TrimUnpadded(n);
    }
    forall n | n in SystemPackages(ls) ensures n in names {
      var l :| l in ls && StartsWith(l, "package:") && Trim(l[8..]) == n;
      var i :| 0 <= i < |ls| && ls[i] == l;
      NameLineAt(names, i);
      TrimUnpadded(names[i]);
    }
  }

  lemma {:induction false} NameLineAt(names: seq<string>, i: nat)
    requires i < |names|
    ensures NameLines(names)[i] == "package:" + names[i]
    ensures StartsWith(NameLines(names)[i], "package:") && NameLines(names)[i][8..] == names[i]
  {
    if i > 0 {
      NameLineAt(names[1..], i - 1);
    }
  }

  lemma {:induction false} PathLinesPlain(xs: seq<Installed>)
    requires forall i :: 0 <= i < |xs| ==> WellFormed(xs[i])
    ensures forall i :: 0 <= i < |xs| ==> IsPlainLine(PathLines(xs)[i])
  {
    if xs != [] {
      PathLinesPlain(xs[1..]);
      var line := PathLine(xs[0]);
      var pkg := xs[0].pkg;
      assert '\n' !in line by {
        forall k | 0 <= k < |line| ensures line[k] != '\n' {
          if k >= |line| - |pkg| { assert line[k] == pkg[k - (|line| - |pkg|)]; }
        }
      }
      assert line[|line| - 1] == pkg[|pkg| - 1];
      forall i | 0 <= i < |xs| ensures IsPlainLine(PathLines(xs)[i]) {
        if i > 0 { assert PathLines(xs)[i] == PathLines(xs[1..])[i - 1]; }
      }
    }
  }

  lemma {:induction false} NameLinesPlain(names: seq<string>)
    requires forall i :: 0 <= i < |names| ==> IsWord(names[i])
    ensures forall i :: 0 <= i < |names| ==> IsPlainLine(NameLines(names)[i])
  {
    forall i | 0 <= i < |names| ensures IsPlainLine(NameLines(names)[i]) {
      NameLineAt(names, i);
      var n := names[i];
      var line := "package:" + n;
      assert '\n' !in line by {
        forall k | 0 <= k < |line| ensures line[k] != '\n' {
          if k >= 8 { assert line[k] == n[k - 8]; }
        }
      }
      assert line[|line| - 1] == n[|n| - 1];
    }
  }

  /** The installed apps of a device are its listed packages, each marked as a
      system app exactly when the system listing names it, in name order. */
  lemma {:induction false} InstalledAppsOfListings(xs: seq<Installed>, names: seq<string>)
    requires forall i :: 0 <= i < |xs| ==> WellFormed(xs[i])
    requires forall i :: 0 <= i < |names| ==> IsWord(names[i])
    ensures multiset(ListApps(UnLines(PathLines(xs)), UnLines(NameLines(names))))
         == multiset(Expected(xs, set n | n in names))
  {
    PathLinesPlain(xs);
    LinesOfUnLines(PathLines(xs));
    NameLinesPlain(names);
    LinesOfUnLines(NameLines(names));
    SystemOfNameLines(names);
    AppsOfPathLines(xs, set n | n in names);
  }
}

=== FILE: basics.dfy ===
/** Option and Result, the two shapes the Rust source uses for "maybe a value" and
    "a value or an error". */
module Basics {

  datatype Option<+T> = None | Some(value: T)

  datatype Result<+T, +E> = Ok(value: T) | Err(error: E)
}

/** What the backend observes of one external command (`adb`, `java -jar apktool`,
    `zipalign`, `java -jar apksigner`): either the process could not be started,
    or it ran and left an exit status and its two output streams. */
module Commands {

  datatype Run =
    | SpawnFailed(reason: string)
    | Exited(success: bool, stdout: string, stderr: string)
}

=== FILE: devices.dfy ===
/** The device side of the backend: `get_devices` (parsing `adb devices -l`) and
    `uninstall_app` (reading the answer of `adb shell pm uninstall`). */
module Devices {
  import opened Basics
  import opened Text
  import opened Commands

  // ---------------------------------------------------------------------------
  // get_devices
  // ---------------------------------------------------------------------------

  /** A listing line the backend keeps: not blank, and mentioning "device" anywhere. */
  predicate IsDeviceLine(line: string) {
    Trim(line) != [] && Contains(line, "device")
  }

  /** Every piece of `split_whitespace` is a word, and there is at least one piece
      exactly when the text is not blank. */
  lemma {:induction false} SplitWhitespaceWords(s: string)
    decreases |s|
    ensures forall i :: 0 <= i < |SplitWhitespace(s)| ==> IsWord(SplitWhitespace(s)[i])
  {
    var t := TrimStart(s);
    if t != [] {
      var n := WordLength(t);
      assert IsWord(t[..n]);
      SplitWhitespaceWords(t[n..]);
    }
  }

  lemma {:induction false} SplitWhitespaceBlank(s: string)
    ensures SplitWhitespace(s) == [] <==> TrimStart(s) == []
  {
  }

  /** The serial the backend reports for a kept line: its first whitespace-separated
      token (the whole line in the fallback the source keeps for a line without one). */
  function SerialOf(line: string): (r: string)
    ensures Trim(line) != [] ==> IsWord(r)
    ensures Trim(line) != [] ==>
      var t := TrimStart(line);
      StartsWith(t, r) && (|r| == |t| || IsSpace(t[|r|]))
  {
    SplitWhitespaceWords(line);
    SplitWhitespaceBlank(line);
    TrimBlank(line);
    assert |SplitWhitespace(line)| > 0 ==> SplitWhitespace(line)[0] == TrimStart(line)[..WordLength(TrimStart(line))];
    var parts := SplitWhitespace(line);
    if |parts| > 0 then parts[0] else line
  }

  /** Serials of the kept lines, in input order. */
  function SerialsOf(lines: seq<string>): (r: seq<string>)
    ensures |r| <= |lines|
    ensures forall i :: 0 <= i < |r| ==> IsWord(r[i])
  {
    if lines == [] then []
    else
      var rest := SerialsOf(lines[1..]);
      var here := if IsDeviceLine(lines[0]) then [SerialOf(lines[0])] else [];
      assert forall i :: 0 <= i < |here| ==> IsWord(here[i]);
      here + rest
  }

  /** `get_devices` applied to the text `adb devices -l` printed: the header line is
      skipped, then the serial of every kept line. */
  function ParseDevices(stdout: string): (r: seq<string>)
    ensures stdout != [] ==> |r| <= |Lines(stdout)| - 1
    ensures forall i :: 0 <= i < |r| ==> IsWord(r[i])
  {
    var ls := Lines(stdout);
    if ls == [] then [] else SerialsOf(ls[1..])
  }

  /** `get_devices`: a command that cannot be started is an error; otherwise its
      stdout is parsed whatever its exit status. */
  function GetDevices(run: Run): (r: Result<seq<string>, string>)
    ensures r.Err? <==> run.SpawnFailed?
    ensures r.Ok? ==> forall i :: 0 <= i < |r.value| ==> IsWord(r.value[i])
    ensures run.Exited? ==> r == Ok(ParseDevices(run.stdout))
  {
    match run
    case SpawnFailed(e) => Err(e)
    case Exited(_, out, _) => Ok(ParseDevices(out))
  }

  // ---------------------------------------------------------------------------
  // A rendered `adb devices -l` listing, as the partner of the parser
  // ---------------------------------------------------------------------------

  /** One attached device as `adb devices` lists it: its serial and the rest of
      the line (the state word and, with `-l`, the description fields). */
  datatype Attached = Attached(serial: string, details: string)

  /** The width of the field `adb devices -l` left-aligns the serial in. */
  const SerialColumn: nat := 22

  /** What separates a serial from the rest of its line under `-l`: the padding
      up to the serial column (none for a longer serial), then one space. */
  function Gap(serial: string): (r: string)
    ensures |r| >= 1
    ensures |serial| + |r| == if |serial| < SerialColumn then SerialColumn + 1 else |serial| + 1
    ensures forall k :: 0 <= k < |r| ==> r[k] == ' '
  {
    seq(if |serial| < SerialColumn then SerialColumn - |serial| else 0, k => ' ') + " "
  }

  /** One device line of `adb devices -l`: the padded serial, a space, the details. */
  function ListingLine(d: Attached): string {
    d.serial + Gap(d.serial) + d.details
  }

  /** The text `adb devices -l` prints: a header, one line per device, a blank line. */
  function Listing(ds: seq<Attached>): string {
    UnLines(["List of devices attached"] + ListingLines(ds) + [""])
  }

  function ListingLines(ds: seq<Attached>): (r: seq<string>)
    ensures |r| == |ds|
    ensures forall i :: 0 <= i < |ds| ==> r[i] == ListingLine(ds[i])
  {
    if ds == [] then [] else [ListingLine(ds[0])] + ListingLines(ds[1..])
  }

  /** A device entry `adb` can print on one line. */
  predicate WellFormed(d: Attached) {
    IsWord(d.serial) && IsPlainLine(d.details)
  }

  /** Serials of the devices whose listing line mentions "device". */
  function Mentioning(ds: seq<Attached>): seq<string> {
    if ds == [] then []
    else (if Contains(ListingLine(ds[0]), "device") then [ds[0].serial] else []) + Mentioning(ds[1..])
  }

  function SerialsOfAll(ds: seq<Attached>): seq<string> {
    if ds == [] then [] else [ds[0].serial] + SerialsOfAll(ds[1..])
  }

  lemma {:induction false} SerialOfListingLine(d: Attached)
    requires WellFormed(d)
    ensures SerialOf(ListingLine(d)) == d.serial
  {
    var line := ListingLine(d);
    assert line == d.serial + (Gap(d.serial) + d.details);
    assert LeadingSpaces(line) == 0;
    assert TrimStart(line) == line;
    assert line[|d.serial|] == ' ';
    assert forall i :: 0 <= i < |d.serial| ==> line[i] == d.serial[i];
    assert WordLength(line) == |d.serial|;
  }

  lemma {:induction false} SerialsOfListingLines(ds: seq<Attached>)
    requires forall i :: 0 <= i < |ds| ==> WellFormed(ds[i])
    ensures SerialsOf(ListingLines(ds) + [""]) == Mentioning(ds)
  {
    if ds == [] {
      assert SerialsOf([""]) == [];
    } else {
      var line := ListingLine(ds[0]);
      var rest := ListingLines(ds[1..]) + [""];
      ListingLineNotBlank(ds[0]);
      SerialOfListingLine(ds[0]);
      assert ListingLines(ds) + [""] == [line] + rest;
      SerialsOfCons(line, rest);
      SerialsOfListingLines(ds[1..]);
    }
  }

  /** A device line starts with its serial, so it is not blank. */
  lemma {:induction false} ListingLineNotBlank(d: Attached)
    requires WellFormed(d)
    ensures Trim(ListingLine(d)) != []
  {
    var line := ListingLine(d);
    assert line[0] == d.serial[0];
    assert !IsSpace(line[0]);
    TrimBlank(line);
  }

  /** The serials of a first line, then of the rest. */
  lemma {:induction false} SerialsOfCons(line: string, rest: seq<string>)
    ensures SerialsOf([line] + rest) == (if IsDeviceLine(line) then [SerialOf(line)] else []) + SerialsOf(rest)
  {
    assert ([line] + rest)[1..] == rest;
  }

  lemma {:induction false} ListingLinePlain(d: Attached)
    requires WellFormed(d)
    ensures IsPlainLine(ListingLine(d))
  {
    var line := ListingLine(d);
    var g := Gap(d.serial);
    var n := |d.serial| + |g|;
    assert forall k :: 0 <= k < |d.serial| ==> line[k] == d.serial[k];
    assert forall k :: |d.serial| <= k < n ==> line[k] == g[k - |d.serial|];
    assert forall k :: n <= k < |line| ==> line[k] == d.details[k - n];
    if d.details == [] {
      assert line[|line| - 1] == ' ';
    }
  }

  lemma {:induction false} ParseListingLines(stdout: string, ds: seq<Attached>)
    requires forall i :: 0 <= i < |ds| ==> WellFormed(ds[i])
    requires Lines(stdout) == ["List of devices attached"] + ListingLines(ds) + [""]
    ensures ParseDevices(stdout) == Mentioning(ds)
  {
    assert Lines(stdout)[1..] == ListingLines(ds) + [""];
    SerialsOfListingLines(ds);
  }

  /** Parsing a rendered listing gives back, in order, the serial of every device
      whose line mentions "device". */
  lemma {:induction false} DevicesOfListing(ds: seq<Attached>)
    requires forall i :: 0 <= i < |ds| ==> WellFormed(ds[i])
    ensures ParseDevices(Listing(ds)) == Mentioning(ds)
  {
    var body := ListingLines(ds);
    var ls := ["List of devices attached"] + body + [""];
    forall i | 0 <= i < |body| ensures IsPlainLine(body[i]) {
      ListingLinePlain(ds[i]);
    }
    assert forall i :: 0 <= i < |ls| ==> IsPlainLine(ls[i]) by {
      assert forall i :: 0 < i < |ls| - 1 ==> ls[i] == body[i - 1];
    }
    LinesOfUnLines(ls);
    ParseListingLines(Listing(ds), ds);
  }

  /** The device is online: its state is `device`, alone or followed by the
      description fields `-l` adds. */
  predicate Online(d: Attached) {
    d.details == "device" || StartsWith(d.details, "device ")
  }

  /** A device in state `device` is always reported. */
  lemma {:induction false} OnlineIsMentioned(d: Attached)
    requires Online(d)
    ensures Contains(ListingLine(d), "device")
  {
    var line := ListingLine(d);
    var n := |d.serial| + |Gap(d.serial)|;
    assert line[n..] == d.details;
    ContainsAt(line, "device", n);
  }

  /** When every device is online, the parser reports exactly the attached serials. */
  lemma {:induction false} AllOnline(ds: seq<Attached>)
    requires forall i :: 0 <= i < |ds| ==> WellFormed(ds[i]) && Online(ds[i])
    ensures ParseDevices(Listing(ds)) == SerialsOfAll(ds)
  {
    DevicesOfListing(ds);
    MentioningAllOnline(ds);
  }

  lemma {:induction false} MentioningAllOnline(ds: seq<Attached>)
    requires forall i :: 0 <= i < |ds| ==> Online(ds[i])
    ensures Mentioning(ds) == SerialsOfAll(ds)
  {
    if ds != [] {
      OnlineIsMentioned(ds[0]);
      MentioningAllOnline(ds[1..]);
    }
  }

  // ---------------------------------------------------------------------------
  // uninstall_app
  // ---------------------------------------------------------------------------

  /** `uninstall_app`: true exactly when the command's stdout contains "Success".
      The package name is passed through unvalidated and the exit status is not
      consulted. */
  function UninstallApp(packageName: string, run: Run): (r: Result<bool, string>)
    ensures r.Err? <==> run.SpawnFailed?
    ensures r.Ok? ==> (r.value <==> exists j :: 0 <= j <= |run.stdout| && StartsWith(run.stdout[j..], "Success"))
  {
    match run
    case SpawnFailed(e) => Err(e)
    case Exited(_, out, _) => Ok(Contains(out, "Success"))
  }

  /** The package name and the exit status have no bearing on the answer. */
  lemma {:induction false} UninstallIgnoresNameAndStatus(p1: string, p2: string, ok1: bool, ok2: bool, out: string, e1: string, e2: string)
    ensures UninstallApp(p1, Exited(ok1, out, e1)) == UninstallApp(p2, Exited(ok2, out, e2))
  {
  }
}

=== FILE: manifest.dfy ===
/** The edit `process_apk_full` makes to the decompiled `AndroidManifest.xml`:
    the first match of the regular expression `package="[^"]+"` is replaced by
    the new package attribute (the replacement text goes through the regex
    crate's `$` expansion), and, when the text has no `<uses-sdk`, a fixed
    `uses-sdk` element is inserted before the first `<application`. */
module Manifest {
  import opened Basics
  import opened Text

  // ---------------------------------------------------------------------------
  // Matching `package="[^"]+"`
  // ---------------------------------------------------------------------------

  /** The fixed opening of every match. */
  const Lit: string := "package=\""

  lemma {:induction false} LitFacts()
    ensures |Lit| == 9 && Lit[0] == 'p' && Lit[8] == '"'
    ensures forall k :: 0 <= k < |Lit| ==> Lit[k] != ' ' && Lit[k] != '<'
  {
  }

  /** The opening starts at position `i` of `s`. */
  predicate OpensAt(s: string, i: nat) {
    i + |Lit| <= |s| && s[i..i + |Lit|] == Lit
  }

  /** The first quote at or after position `k`. */
  function QuoteFrom(s: string, k: nat): (r: Option<nat>)
    requires k <= |s|
    decreases |s| - k
    ensures r.Some? ==> k <= r.value < |s| && s[r.value] == '"'
    ensures r.Some? ==> forall x :: k <= x < r.value ==> s[x] != '"'
    ensures r.None? ==> forall x :: k <= x < |s| ==> s[x] != '"'
  {
    if k == |s| then None
    else if s[k] == '"' then Some(k)
    else QuoteFrom(s, k + 1)
  }

  /** A match starts at position `i`: the opening, at least one character
      other than a quote, and a closing quote. */
  predicate MatchAt(s: string, i: nat) {
    OpensAt(s, i) && i + |Lit| < |s| && s[i + |Lit|] != '"' && QuoteFrom(s, i + |Lit|).Some?
  }

  /** Where the match at `i` ends: just after the first quote following the opening. */
  function MatchEnd(s: string, i: nat): (e: nat)
    requires MatchAt(s, i)
    ensures i + |Lit| + 1 < e <= |s| && s[e - 1] == '"'
    ensures forall x :: i + |Lit| <= x < e - 1 ==> s[x] != '"'
  {
    QuoteFrom(s, i + |Lit|).value + 1
  }

  /** The attribute value the match at `i` carries. */
  function MatchValue(s: string, i: nat): (r: string)
    requires MatchAt(s, i)
    ensures r != [] && '"' !in r
  {
    var v := s[i + |Lit|..MatchEnd(s, i) - 1];
    assert forall k :: 0 <= k < |v| ==> v[k] == s[i + |Lit| + k];
    v
  }

  /** The leftmost match at or after `from`. */
  function FirstMatchFrom(s: string, from: nat): (r: Option<nat>)
    requires from <= |s|
    decreases |s| - from
    ensures r.Some? ==> from <= r.value < |s| && MatchAt(s, r.value)
    ensures r.Some? ==> forall j :: from <= j < r.value ==> !MatchAt(s, j)
    ensures r.None? ==> forall j :: from <= j < |s| ==> !MatchAt(s, j)
  {
    if from == |s| then None
    else if MatchAt(s, from) then Some(from)
    else FirstMatchFrom(s, from + 1)
  }

  /** Where the regex finds its first match. */
  function FirstMatch(s: string): (r: Option<nat>)
    ensures r.Some? ==> r.value < |s| && MatchAt(s, r.value)
    ensures r.Some? ==> forall j :: 0 <= j < r.value ==> !MatchAt(s, j)
    ensures r.None? ==> forall j :: 0 <= j < |s| ==> !MatchAt(s, j)
  {
    FirstMatchFrom(s, 0)
  }

  /** The package the manifest declares, as the regex sees it. */
  function PackageOf(s: string): Option<string> {
    match FirstMatch(s)
    case None => None
    case Some(i) => Some(MatchValue(s, i))
  }

  /** A match is the leftmost one when nothing before it is a match. */
  lemma {:induction false} FirstMatchIs(s: string, i: nat)
    requires i < |s| && MatchAt(s, i)
    requires forall j :: 0 <= j < i ==> !MatchAt(s, j)
    ensures FirstMatch(s) == Some(i)
  {
  }

  /** The first quote from `k` on is found the same way in two texts that agree
      up to a quote. */
  lemma {:induction false} QuoteLocal(s: string, u: string, k: nat, q: nat)
    requires k <= q < |s| && q < |u| && s[q] == '"'
    requires forall x :: k <= x <= q ==> s[x] == u[x]
    ensures QuoteFrom(s, k) == QuoteFrom(u, k)
  {
    var a := QuoteFrom(s, k);
    var b := QuoteFrom(u, k);
    assert u[q] == '"';
    assert a.Some? && b.Some?;
    assert a.value <= q && b.value <= q;
  }

  /** Whether a match starts at `i`, and where it ends, depend only on the
      text up to a quote after the opening. */
  lemma {:induction false} MatchLocal(s: string, u: string, i: nat, q: nat)
    requires i + |Lit| <= q < |s| && q < |u| && s[q] == '"'
    requires forall x :: i <= x <= q ==> s[x] == u[x]
    ensures MatchAt(s, i) <==> MatchAt(u, i)
    ensures MatchAt(s, i) ==> MatchEnd(s, i) == MatchEnd(u, i) <= q + 1
  {
    assert s[i..i + |Lit|] == u[i..i + |Lit|];
    QuoteLocal(s, u, i + |Lit|, q);
  }

  /** The quote search moved `d` places along finds the same quote. */
  lemma {:induction false} QuoteShift(s: string, t: string, d: nat, k: nat)
    requires k <= |s| && |t| == |s| + d
    requires forall x :: k <= x < |s| ==> t[x + d] == s[x]
    decreases |s| - k
    ensures QuoteFrom(t, k + d).Some? == QuoteFrom(s, k).Some?
    ensures QuoteFrom(s, k).Some? ==> QuoteFrom(t, k + d).value == QuoteFrom(s, k).value + d
  {
    if k < |s| && s[k] != '"' {
      QuoteShift(s, t, d, k + 1);
    }
  }

  /** A match moved `d` places along is the same match. */
  lemma {:induction false} MatchShift(s: string, t: string, d: nat, j: nat)
    requires j <= |s| && |t| == |s| + d
    requires forall x :: j <= x < |s| ==> t[x + d] == s[x]
    ensures MatchAt(t, j + d) <==> MatchAt(s, j)
    ensures MatchAt(s, j) ==> MatchEnd(t, j + d) == MatchEnd(s, j) + d
  {
    if j + |Lit| <= |s| {
      assert t[j + d..j + d + |Lit|] == s[j..j + |Lit|];
      QuoteShift(s, t, d, j + |Lit|);
    }
  }

  // ---------------------------------------------------------------------------
  // The regex crate's expansion of `$` in a replacement
  // ---------------------------------------------------------------------------

  /** The characters a bare `$name` reference is made of. */
  predicate IsCapLetter(c: char) { IsAlnum(c) || c == '_' }

  /** The length of the run of name characters `t` starts with. */
  function CapLetters(t: string): (n: nat)
    ensures n <= |t|
    ensures forall k :: 0 <= k < n ==> IsCapLetter(t[k])
    ensures n == |t| || !IsCapLetter(t[n])
  {
    if t != [] && IsCapLetter(t[0]) then 1 + CapLetters(t[1..]) else 0
  }

  /** A group reference: its name and where the replacement text resumes. */
  datatype CapRef = CapRef(name: string, end: nat)

  /** The reference a '$' opens: `${name}` up to the first '}', or `$name` with
      the longest run of name characters; none when neither is there. */
  function FindCapRef(rep: string): (r: Option<CapRef>)
    requires rep != [] && rep[0] == '$'
    ensures r.Some? ==> 2 <= r.value.end <= |rep|
  {
    if |rep| <= 1 then None
    else if rep[1] == '{' then
      match IndexOf(rep[2..], '}')
      case None => None
      case Some(k) => Some(CapRef(rep[2..2 + k], 2 + k + 1))
    else
      var n := CapLetters(rep[1..]);
      if n == 0 then None else Some(CapRef(rep[1..1 + n], 1 + n))
  }

  /** A name that parses as the unsigned number 0: an optional '+' and one or
      more zeros. Only group 0, the whole match, exists in this pattern. */
  predicate IsGroupZero(name: string) {
    AllZeros(name) || (name != [] && name[0] == '+' && AllZeros(name[1..]))
  }

  predicate AllZeros(digits: string) {
    digits != [] && forall k :: 0 <= k < |digits| ==> digits[k] == '0'
  }

  /** What a reference expands to: the match for group 0, nothing otherwise
      (other numbers and all names name no group). */
  function Resolve(name: string, m: string): (r: string)
    ensures r == m || r == []
  {
    if IsGroupZero(name) then m else []
  }

  /** The replacement text with `$$` read as '$', references expanded, and a
      '$' that opens no reference kept. */
  function Interpolate(rep: string, m: string): string
    decreases |rep|
  {
    if rep == [] then []
    else if rep[0] != '$' then [rep[0]] + Interpolate(rep[1..], m)
    else if |rep| >= 2 && rep[1] == '$' then "$" + Interpolate(rep[2..], m)
    else match FindCapRef(rep)
      case None => "$" + Interpolate(rep[1..], m)
      case Some(c) => Resolve(c.name, m) + Interpolate(rep[c.end..], m)
  }

  /** Text without '$' is inserted as it is. */
  lemma {:induction false} InterpolatePlain(rep: string, m: string)
    requires '$' !in rep
    ensures Interpolate(rep, m) == rep
  {
    if rep != [] {
      InterpolatePlain(rep[1..], m);
    }
  }

  /** `$0` stands for the whole match, `$1` for nothing (there is no group 1),
      and `$$` for a '$'. */
  lemma {:induction false} DollarReferences(m: string)
    ensures Interpolate("$0", m) == m
    ensures Interpolate("$1", m) == []
    ensures Interpolate("$$0", m) == "$0"
  {
    assert CapLetters("0") == 1 && CapLetters("1") == 1;
    var z, o := "$0", "$1";
    assert z[1..] == "0" && o[1..] == "1";
    assert z[1..2] == "0" && o[1..2] == "1";
    assert z[2..] == [] && o[2..] == [];
    assert FindCapRef(z) == Some(CapRef("0", 2));
    assert FindCapRef(o) == Some(CapRef("1", 2));
    assert IsGroupZero("0") by { assert "0"[0] == '0' && |"0"| == 1; }
    assert !IsGroupZero("1") by { assert "1"[0] == '1'; assert !AllZeros("1"); }
    assert "$$0"[2..] == "0";
    assert "0"[1..] == [];
  }

  /** `Regex::replace`: the first match replaced by the expanded replacement. */
  function ReplaceFirst(s: string, rep: string): (r: string)
    ensures FirstMatch(s).None? ==> r == s
  {
    match FirstMatch(s)
    case None => s
    case Some(i) =>
      var e := MatchEnd(s, i);
      s[..i] + Interpolate(rep, s[i..e]) + s[e..]
  }

  // ---------------------------------------------------------------------------
  // The patch
  // ---------------------------------------------------------------------------

  /** `format!("package=\"{}\"", new_package)`. */
  function Attr(pkg: string): (r: string)
    ensures |r| == |Lit| + |pkg| + 1
  {
    Lit + pkg + "\""
  }

  /** The element inserted in front of `<application`, with its indentation:
      `    <uses-sdk android:minSdkVersion="19" android:targetSdkVersion="27"/>`,
      a line break and four spaces. The pieces are the element's text cut before
      each attribute name and each attribute value. */
  const SdkLine: string := SdkOpen + SdkMin + SdkMid + SdkTarget + SdkClose
  const SdkOpen: string := "    <uses-sdk"
  const SdkMin: string := " android:minSdkVersion="
  const SdkMid: string := "\"19\" android:"
  const SdkTarget: string := "targetSdkVersion="
  const SdkClose: string := "\"27\"/>\n    "

  function InsertSdk(s: string, pos: nat): (r: string)
    requires pos <= |s|
    ensures |r| == |s| + |SdkLine|
  {
    s[..pos] + SdkLine + s[pos..]
  }

  /** Where the element goes: in front of the first `<application`, and only
      when the text has no `<uses-sdk` yet. */
  function SdkPos(m: string): (r: Option<nat>)
    ensures r.Some? ==> r.value < |m| && m[r.value] == '<'
    ensures r.Some? ==> !Contains(m, "<uses-sdk")
  {
    if Contains(m, "<uses-sdk") then None
    else
      var f := Find(m, "<application");
      if f.Some? then assert m[f.value..][0] == '<'; f else None
  }

  /** The element goes in exactly when the text has no `<uses-sdk` but has an
      `<application`, and then in front of the first `<application`. */
  lemma {:induction false} SdkInsertion(m: string)
    ensures SdkPos(m).Some? <==> !Contains(m, "<uses-sdk") && Contains(m, "<application")
    ensures SdkPos(m).Some? ==> StartsWith(m[SdkPos(m).value..], "<application")
    ensures SdkPos(m).Some? ==> forall j :: 0 <= j < SdkPos(m).value ==> !StartsWith(m[j..], "<application")
  {
  }

  /** The manifest after the package is replaced and `uses-sdk` is ensured. */
  function PatchManifest(content: string, pkg: string): string {
    var m := ReplaceFirst(content, Attr(pkg));
    match SdkPos(m)
    case None => m
    case Some(pos) => InsertSdk(m, pos)
  }

  /** An Android package name: letters, digits, '_' and '.', not empty. */
  predicate IsPackageName(pkg: string) {
    pkg != [] && forall k :: 0 <= k < |pkg| ==> IsCapLetter(pkg[k]) || pkg[k] == '.'
  }

  lemma {:induction false} SdkLineFacts()
    ensures |SdkLine| == 77 && SdkLine[0] == ' ' && SdkLine[36] == '"'
    ensures forall k :: 0 <= k < |SdkLine| ==> SdkLine[k] != 'p'
    ensures StartsWith(SdkLine[4..], "<uses-sdk")
  {
    assert |SdkOpen| == 13 && |SdkMin| == 23 && |SdkMid| == 13 && |SdkTarget| == 17 && |SdkClose| == 11;
    forall k | 0 <= k < |SdkLine| ensures SdkLine[k] != 'p' {
      if k < 13 {
        assert SdkLine[k] == SdkOpen[k];
      } else if k < 36 {
        assert SdkLine[k] == SdkMin[k - 13];
      } else if k < 49 {
        assert SdkLine[k] == SdkMid[k - 36];
      } else if k < 66 {
        assert SdkLine[k] == SdkTarget[k - 49];
      } else {
        assert SdkLine[k] == SdkClose[k - 66];
      }
    }
    assert SdkLine[36] == SdkMid[0];
    assert SdkLine[4..][..9] == SdkOpen[4..];
  }

  /** The attribute for a package name: its opening, its value, its closing
      quote, and no '$', '"' or '<' in the value. */
  lemma {:induction false} AttrChars(pkg: string)
    requires IsPackageName(pkg)
    ensures Attr(pkg)[..|Lit|] == Lit && Attr(pkg)[|Attr(pkg)| - 1] == '"'
    ensures forall j :: 0 <= j < |Attr(pkg)| ==> Attr(pkg)[j] != '$' && Attr(pkg)[j] != '<'
    ensures forall j :: |Lit| <= j < |Attr(pkg)| - 1 ==> Attr(pkg)[j] == pkg[j - |Lit|] && Attr(pkg)[j] != '"'
    ensures pkg[0] != ' '
  {
    var a := Attr(pkg);
    forall j | 0 <= j < |a| ensures a[j] != '$' && a[j] != '<' {
      if |Lit| <= j < |a| - 1 { assert a[j] == pkg[j - |Lit|]; }
    }
  }

  /** `s` holds the attribute for `pkg` at `k`, and that is the first match. */
  predicate AttrFirst(s: string, k: nat, pkg: string) {
    FirstMatch(s) == Some(k) && k + |Attr(pkg)| <= |s| && s[k..k + |Attr(pkg)|] == Attr(pkg)
  }

  /** The attribute for a package name is a match that ends with it and carries the name. */
  lemma {:induction false} AttrIsMatch(u: string, i: nat, pkg: string)
    requires IsPackageName(pkg)
    requires i + |Attr(pkg)| <= |u| && u[i..i + |Attr(pkg)|] == Attr(pkg)
    ensures MatchAt(u, i) && MatchEnd(u, i) == i + |Attr(pkg)| && MatchValue(u, i) == pkg
  {
    var a := Attr(pkg);
    AttrChars(pkg);
    assert forall x :: i <= x < i + |a| ==> u[x] == a[x - i];
    assert u[i..i + |Lit|] == a[..|Lit|];
    var q := QuoteFrom(u, i + |Lit|);
    assert u[i + |a| - 1] == '"';
    assert q.Some? && q.value <= i + |a| - 1;
    assert q.value == i + |a| - 1;
    assert MatchValue(u, i) == u[i + |Lit|..i + |a| - 1];
    assert u[i + |Lit|..i + |a| - 1] == a[|Lit|..|a| - 1];
  }

  /** The attribute at the first match leaves nothing for the replacement to change. */
  lemma {:induction false} ReplaceAtAttr(s: string, k: nat, pkg: string)
    requires IsPackageName(pkg)
    requires AttrFirst(s, k, pkg)
    ensures ReplaceFirst(s, Attr(pkg)) == s
    ensures PackageOf(s) == Some(pkg)
  {
    AttrIsMatch(s, k, pkg);
    ReplaceAtAttrText(s, k, pkg);
  }

  lemma {:induction false} ReplaceAtAttrText(s: string, k: nat, pkg: string)
    requires IsPackageName(pkg)
    requires FirstMatch(s) == Some(k) && k + |Attr(pkg)| <= |s| && s[k..k + |Attr(pkg)|] == Attr(pkg)
    requires MatchAt(s, k) && MatchEnd(s, k) == k + |Attr(pkg)|
    ensures ReplaceFirst(s, Attr(pkg)) == s
  {
    var a := Attr(pkg);
    PackageNameNoDollar(pkg);
    AttrNoDollar(pkg);
    InterpolatePlain(a, a);
    ReplaceKeeps(s, a, k);
  }

  /** The attribute holds a '$' only when the name does. */
  lemma {:induction false} AttrNoDollar(pkg: string)
    requires '$' !in pkg
    ensures '$' !in Attr(pkg)
  {
    assert Attr(pkg) == Lit + pkg + "\"";
    assert '$' !in Lit;
  }

  /** A name of letters, digits, '_' and '.' holds no '$'. */
  lemma {:induction false} PackageNameNoDollar(pkg: string)
    requires IsPackageName(pkg)
    ensures '$' !in pkg
  {
  }

  /** A replacement that expands to the match itself changes nothing. */
  lemma {:induction false} ReplaceKeeps(s: string, rep: string, k: nat)
    requires FirstMatch(s) == Some(k)
    requires Interpolate(rep, s[k..MatchEnd(s, k)]) == s[k..MatchEnd(s, k)]
    ensures ReplaceFirst(s, rep) == s
  {
    var e := MatchEnd(s, k);
    assert s[..k] + s[k..e] + s[e..] == s;
  }

  /** Before the first match, a text that agrees up to the end of that match's
      opening has no match either: the opening's quote closes every earlier one. */
  lemma {:induction false} NoEarlierMatch(s: string, u: string, i: nat, j: nat)
    requires j < i && i + |Lit| <= |s| && i + |Lit| <= |u|
    requires s[..i + |Lit|] == u[..i + |Lit|]
    requires OpensAt(s, i)
    requires !MatchAt(s, j)
    ensures !MatchAt(u, j)
  {
    LitFacts();
    var q := i + |Lit| - 1;
    assert s[q] == s[i..i + |Lit|][|Lit| - 1];
    assert forall x :: j <= x <= q ==> s[x] == s[..i + |Lit|][x] && u[x] == u[..i + |Lit|][x];
    MatchLocal(s, u, j, q);
  }

  /** The text the replacement produces when the attribute for `pkg` goes in. */
  lemma {:induction false} ReplacedText(c: string, pkg: string)
    requires '$' !in pkg
    requires FirstMatch(c).Some?
    ensures var i := FirstMatch(c).value;
      ReplaceFirst(c, Attr(pkg)) == c[..i] + Attr(pkg) + c[MatchEnd(c, i)..]
  {
    var i := FirstMatch(c).value;
    var e := MatchEnd(c, i);
    var a := Attr(pkg);
    AttrNoDollar(pkg);
    InterpolatePlain(a, c[i..e]);
    assert ReplaceFirst(c, a) == c[..i] + Interpolate(a, c[i..e]) + c[e..];
  }

  /** A text that agrees with `s` up to the opening of its first match, and has
      the attribute for `pkg` there, has that attribute as its first match. */
  lemma {:induction false} AttrFirstAfter(s: string, u: string, i: nat, pkg: string)
    requires IsPackageName(pkg)
    requires FirstMatch(s) == Some(i)
    requires i + |Attr(pkg)| <= |u| && u[i..i + |Attr(pkg)|] == Attr(pkg)
    requires i + |Lit| <= |s| && s[..i + |Lit|] == u[..i + |Lit|]
    ensures AttrFirst(u, i, pkg)
  {
    AttrIsMatch(u, i, pkg);
    forall j | 0 <= j < i ensures !MatchAt(u, j) {
      NoEarlierMatch(s, u, i, j);
    }
    FirstMatchIs(u, i);
  }

  /** Splicing text that starts with the opening in at a match's position keeps
      the text up to the end of that opening. */
  lemma {:induction false} SplicedPrefix(c: string, i: nat, a: string, rest: string)
    requires OpensAt(c, i)
    requires |Lit| <= |a| && a[..|Lit|] == Lit
    ensures (c[..i] + a + rest)[i..i + |a|] == a
    ensures c[..i + |Lit|] == (c[..i] + a + rest)[..i + |Lit|]
  {
    var m := c[..i] + a + rest;
    assert m[..i + |Lit|] == c[..i] + a[..|Lit|];
    assert c[..i + |Lit|] == c[..i] + c[i..i + |Lit|];
  }

  /** Replacing the first match with the attribute for `pkg` puts that
      attribute where the match was, and it is the first match then. */
  lemma {:induction false} ReplaceGivesAttr(c: string, pkg: string)
    requires IsPackageName(pkg)
    requires FirstMatch(c).Some?
    ensures AttrFirst(ReplaceFirst(c, Attr(pkg)), FirstMatch(c).value, pkg)
  {
    var i := FirstMatch(c).value;
    var a := Attr(pkg);
    var rest := c[MatchEnd(c, i)..];
    PackageNameNoDollar(pkg);
    ReplacedText(c, pkg);
    AttrChars(pkg);
    SplicedPrefix(c, i, a, rest);
    AttrFirstAfter(c, c[..i] + a + rest, i, pkg);
  }

  /** Inserting text at or after the end of the attribute keeps it the first match. */
  lemma {:induction false} InsertAfterKeeps(s: string, k: nat, pkg: string, pos: nat)
    requires IsPackageName(pkg)
    requires AttrFirst(s, k, pkg)
    requires k + |Attr(pkg)| <= pos <= |s|
    ensures AttrFirst(InsertSdk(s, pos), k, pkg)
  {
    var a := Attr(pkg);
    var t := InsertSdk(s, pos);
    SplicedBefore(s, SdkLine, pos);
    assert t[k..k + |a|] == s[k..k + |a|];
    assert t[..k + |Lit|] == s[..k + |Lit|];
    AttrFirstAfter(s, t, k, pkg);
  }

  /** Inside the inserted element no match can start: it has no 'p'. */
  lemma {:induction false} NoMatchInSdk(s: string, pos: nat, j: nat)
    requires pos <= j < pos + |SdkLine| && pos <= |s|
    ensures !MatchAt(InsertSdk(s, pos), j)
  {
    var t := InsertSdk(s, pos);
    SplicedAt(s, SdkLine, pos, j - pos);
    SdkLineFacts();
    LitFacts();
    NoOpeningAt(t, j, 0);
  }

  /** Text spliced in at `pos` keeps what comes before it. */
  lemma {:induction false} SplicedBefore(s: string, m: string, pos: nat)
    requires pos <= |s|
    ensures forall x :: 0 <= x < pos ==> (s[..pos] + m + s[pos..])[x] == s[x]
  {
  }

  /** Text spliced in at `pos` shows up there. */
  lemma {:induction false} SplicedAt(s: string, m: string, pos: nat, x: nat)
    requires pos <= |s| && x < |m|
    ensures (s[..pos] + m + s[pos..])[pos + x] == m[x]
  {
  }

  /** Text spliced in at `pos` moves what comes after it along by its length. */
  lemma {:induction false} SplicedAfter(s: string, m: string, pos: nat)
    requires pos <= |s|
    ensures forall x :: pos <= x < |s| ==> (s[..pos] + m + s[pos..])[x + |m|] == s[x]
  {
  }

  /** A stretch of text moved `d` places along. */
  lemma {:induction false} ShiftedSlice(s: string, t: string, d: nat, lo: nat, hi: nat)
    requires lo <= hi <= |s| && hi + d <= |t|
    requires forall x :: lo <= x < hi ==> t[x + d] == s[x]
    ensures t[lo + d..hi + d] == s[lo..hi]
  {
    forall x | 0 <= x < hi - lo
      ensures t[lo + d..hi + d][x] == s[lo..hi][x]
    {
      assert t[lo + d..hi + d][x] == t[lo + x + d];
    }
  }

  /** A text that differs from the opening at offset `n` from `j`, or ends
      before it, has no match at `j`. */
  lemma {:induction false} NoOpeningAt(t: string, j: nat, n: nat)
    requires n < |Lit| && (j + n < |t| ==> t[j + n] != Lit[n])
    ensures !MatchAt(t, j)
  {
  }

  /** A position before an inserted element that had no match still has none:
      the inserted text starts with a space, which no opening holds, and an
      opening that is not a match is closed by a quote right away. */
  lemma {:induction false} NoMatchBeforeSdk(s: string, pos: nat, j: nat, q: nat)
    requires j < pos < |s| && s[pos] == '<'
    requires j + |Lit| <= q < |s| && s[q] == '"'
    requires !MatchAt(s, j)
    ensures !MatchAt(InsertSdk(s, pos), j)
  {
    var t := InsertSdk(s, pos);
    SplicedBefore(s, SdkLine, pos);
    if j + |Lit| > pos {
      assert t[pos] == ' ' by {
        SdkLineFacts();
      }
      LitFacts();
      NoOpeningAt(t, j, pos - j);
    } else if OpensAt(s, j) {
      assert s[j + |Lit|] == '"';
      assert t[j + |Lit|] == '"';
    } else {
      assert t[j..j + |Lit|] == s[j..j + |Lit|];
    }
  }

  /** Inserting the element before the attribute moves the first match along with it. */
  lemma {:induction false} InsertBeforeShifts(s: string, k: nat, pkg: string, pos: nat)
    requires IsPackageName(pkg)
    requires AttrFirst(s, k, pkg)
    requires pos < k && s[pos] == '<'
    ensures AttrFirst(InsertSdk(s, pos), k + |SdkLine|, pkg)
  {
    var t := InsertSdk(s, pos);
    var d := |SdkLine|;
    AttrQuote(s, k, pkg);
    AttrMoved(s, k, pkg, pos);
    NoMatchBeforeInserted(s, k, pos);
    AttrIsMatch(t, k + d, pkg);
    FirstMatchIs(t, k + d);
  }

  /** The attribute after the insertion point moves along by the element's length. */
  lemma {:induction false} AttrMoved(s: string, k: nat, pkg: string, pos: nat)
    requires k + |Attr(pkg)| <= |s| && s[k..k + |Attr(pkg)|] == Attr(pkg)
    requires pos <= k
    ensures var t := InsertSdk(s, pos);
      k + |SdkLine| + |Attr(pkg)| <= |t| && t[k + |SdkLine|..k + |SdkLine| + |Attr(pkg)|] == Attr(pkg)
  {
    SplicedAfter(s, SdkLine, pos);
    ShiftedSlice(s, InsertSdk(s, pos), |SdkLine|, k, k + |Attr(pkg)|);
  }

  /** Once the element is in, no match starts before the moved opening. */
  lemma {:induction false} NoMatchBeforeInserted(s: string, k: nat, pos: nat)
    requires forall i :: 0 <= i < k ==> !MatchAt(s, i)
    requires k + |Lit| <= |s| && s[k + |Lit| - 1] == '"'
    requires pos < k && s[pos] == '<'
    ensures forall j :: 0 <= j < k + |SdkLine| ==> !MatchAt(InsertSdk(s, pos), j)
  {
    forall j | 0 <= j < k + |SdkLine| ensures !MatchAt(InsertSdk(s, pos), j) {
      NoMatchBeforeShifted(s, k, pos, j);
    }
  }

  /** Before a moved opening no match starts: not in front of the element, not
      inside it, and not between it and the opening. */
  lemma {:induction false} NoMatchBeforeShifted(s: string, k: nat, pos: nat, j: nat)
    requires forall i :: 0 <= i < k ==> !MatchAt(s, i)
    requires k + |Lit| <= |s| && s[k + |Lit| - 1] == '"'
    requires pos < k && s[pos] == '<'
    requires j < k + |SdkLine|
    ensures !MatchAt(InsertSdk(s, pos), j)
  {
    var d := |SdkLine|;
    if j >= pos + d {
      assert !MatchAt(s, j - d);
      MatchAfterSdk(s, pos, j - d);
    } else if j >= pos {
      NoMatchInSdk(s, pos, j);
    } else {
      assert !MatchAt(s, j);
      NoMatchBeforeSdk(s, pos, j, k + |Lit| - 1);
    }
  }

  /** A match after the inserted element is the same match, moved along. */
  lemma {:induction false} MatchAfterSdk(s: string, pos: nat, j: nat)
    requires pos <= j <= |s|
    ensures MatchAt(InsertSdk(s, pos), j + |SdkLine|) <==> MatchAt(s, j)
  {
    SplicedAfter(s, SdkLine, pos);
    MatchShift(s, InsertSdk(s, pos), |SdkLine|, j);
  }

  /** The attribute's opening ends with a quote. */
  lemma {:induction false} AttrQuote(s: string, k: nat, pkg: string)
    requires k + |Attr(pkg)| <= |s| && s[k..k + |Attr(pkg)|] == Attr(pkg)
    ensures k + |Lit| <= |s| && s[k + |Lit| - 1] == '"'
  {
    assert s[k + |Lit| - 1] == Attr(pkg)[|Lit| - 1];
  }

  /** No '<' inside the attribute, so `<application` starts before or after it. */
  lemma {:induction false} LessThanOutsideAttr(s: string, k: nat, pkg: string, pos: nat)
    requires IsPackageName(pkg)
    requires k + |Attr(pkg)| <= |s| && s[k..k + |Attr(pkg)|] == Attr(pkg)
    requires pos < |s| && s[pos] == '<'
    ensures pos < k || k + |Attr(pkg)| <= pos
  {
    AttrChars(pkg);
  }

  /** After the patch the attribute for `pkg` is the manifest's first match,
      wherever the element went. */
  lemma {:induction false} PatchAttrFirst(c: string, pkg: string) returns (k: nat)
    requires IsPackageName(pkg)
    requires FirstMatch(c).Some?
    ensures AttrFirst(PatchManifest(c, pkg), k, pkg)
  {
    var m := ReplaceFirst(c, Attr(pkg));
    var i := FirstMatch(c).value;
    ReplaceGivesAttr(c, pkg);
    k := i;
    if SdkPos(m).Some? {
      var pos := SdkPos(m).value;
      assert PatchManifest(c, pkg) == InsertSdk(m, pos);
      k := InsertKeepsAttrFirst(m, i, pkg, pos);
    } else {
      assert PatchManifest(c, pkg) == m;
    }
  }

  /** Inserting the element at a '<' keeps the attribute the first match,
      moved along when the element goes in front of it. */
  lemma {:induction false} InsertKeepsAttrFirst(m: string, i: nat, pkg: string, pos: nat) returns (k: nat)
    requires IsPackageName(pkg)
    requires AttrFirst(m, i, pkg)
    requires pos < |m| && m[pos] == '<'
    ensures AttrFirst(InsertSdk(m, pos), k, pkg)
  {
    LessThanOutsideAttr(m, i, pkg, pos);
    if pos < i {
      InsertBeforeShifts(m, i, pkg, pos);
      k := i + |SdkLine|;
    } else {
      InsertAfterKeeps(m, i, pkg, pos);
      k := i;
    }
  }

  /** A manifest that declares a package declares `pkg` after the patch. */
  lemma {:induction false} PatchSetsPackage(c: string, pkg: string)
    requires IsPackageName(pkg)
    requires PackageOf(c).Some?
    ensures PackageOf(PatchManifest(c, pkg)) == Some(pkg)
  {
    var k := PatchAttrFirst(c, pkg);
    ReplaceAtAttr(PatchManifest(c, pkg), k, pkg);
  }

  /** A manifest that declares no package keeps its text; only the element may
      be added, in front of the first `<application`. */
  lemma {:induction false} PatchWithoutPackage(c: string, pkg: string)
    requires PackageOf(c).None?
    ensures !Contains(c, "<uses-sdk") && Contains(c, "<application") ==>
      PatchManifest(c, pkg) == InsertSdk(c, Find(c, "<application").value)
    ensures Contains(c, "<uses-sdk") || !Contains(c, "<application") ==> PatchManifest(c, pkg) == c
  {
    assert ReplaceFirst(c, Attr(pkg)) == c;
  }

  /** After the patch the manifest has a `uses-sdk` element exactly when the
      replaced text had one or had an `<application` to put it before. */
  lemma {:induction false} PatchEnsuresSdk(c: string, pkg: string)
    ensures Contains(PatchManifest(c, pkg), "<uses-sdk")
        <==> Contains(ReplaceFirst(c, Attr(pkg)), "<uses-sdk") || Contains(ReplaceFirst(c, Attr(pkg)), "<application")
  {
    var m := ReplaceFirst(c, Attr(pkg));
    if SdkPos(m).Some? {
      var pos := SdkPos(m).value;
      var t := InsertSdk(m, pos);
      SdkLineFacts();
      assert t[pos + 4..][..|"<uses-sdk"|] == SdkLine[4..][..|"<uses-sdk"|];
      ContainsAt(t, "<uses-sdk", pos + 4);
    }
  }

  /** Patching a manifest that declares a package a second time, with the same
      valid package name, changes nothing. */
  lemma {:induction false} PatchIdempotent(c: string, pkg: string)
    requires IsPackageName(pkg)
    requires PackageOf(c).Some?
    ensures PatchManifest(PatchManifest(c, pkg), pkg) == PatchManifest(c, pkg)
  {
    var p1 := PatchManifest(c, pkg);
    var k := PatchAttrFirst(c, pkg);
    ReplaceAtAttr(p1, k, pkg);
    PatchEnsuresSdk(c, pkg);
  }

  // ---------------------------------------------------------------------------
  // A manifest without a package attribute
  // ---------------------------------------------------------------------------

  const App: string := "<application>"

  /** A text whose only quotes lie inside its first opening has no match. */
  lemma {:induction false} NoMatchWithoutQuote(s: string)
    requires forall x :: |Lit| <= x < |s| ==> s[x] != '"'
    ensures FirstMatch(s).None?
  {
  }

  /** A text that differs from a pattern at position `n`, or ends before it,
      does not start with it. */
  lemma {:induction false} NotStartsWith(t: string, p: string, n: nat)
    requires n < |p| && (n < |t| ==> t[n] != p[n])
    ensures !StartsWith(t, p)
  {
  }

  /** The unclosed manifest `package="<application>`: no match, no `uses-sdk`,
      `<application` right after the opening. */
  lemma {:induction false} UnclosedFacts()
    ensures FirstMatch(Lit + App).None?
    ensures !Contains(Lit + App, "<uses-sdk")
    ensures Find(Lit + App, "<application") == Some(9)
  {
    LitFacts();
    var c := Lit + App;
    assert forall x :: 9 <= x < |c| ==> c[x] == App[x - 9];
    assert forall x :: 0 <= x < |App| ==> App[x] != '"';
    NoMatchWithoutQuote(c);
    assert forall x :: 1 <= x < |App| ==> App[x] != '<';
    forall j | 0 <= j <= |c| ensures !StartsWith(c[j..], "<uses-sdk") {
      if j < 9 {
        assert c[j] == Lit[j];
        NotStartsWith(c[j..], "<uses-sdk", 0);
      } else if j == 9 {
        NotStartsWith(c[j..], "<uses-sdk", 1);
      } else {
        NotStartsWith(c[j..], "<uses-sdk", 0);
      }
    }
    assert StartsWith(c[9..], "<application") by {
      assert c[9..] == App;
    }
    forall j | 0 <= j < 9 ensures !StartsWith(c[j..], "<application") {
      assert c[j] == Lit[j];
      NotStartsWith(c[j..], "<application", 0);
    }
  }

  /** Without a package attribute the patch is not idempotent: an unclosed
      `package="` in front of `<application` is closed by the quotes of the
      inserted element, and the second patch replaces it. */
  lemma {:induction false} UnclosedAttributeRepatched(pkg: string)
    requires IsPackageName(pkg)
    ensures PatchManifest(PatchManifest(Lit + App, pkg), pkg) != PatchManifest(Lit + App, pkg)
  {
    var c := Lit + App;
    UnclosedFacts();
    PatchWithoutPackage(c, pkg);
    var p1 := InsertSdk(c, 9);
    UnclosedMatch(p1);
    PatchSetsPackage(p1, pkg);
    AttrChars(pkg);
  }

  /** After the element goes in, the unclosed opening is a match. */
  lemma {:induction false} UnclosedMatch(p1: string)
    requires p1 == InsertSdk(Lit + App, 9)
    ensures PackageOf(p1).Some? && PackageOf(p1).value[0] == ' '
  {
    LitFacts();
    SdkLineFacts();
    assert p1[..9] == Lit;
    assert p1[9] == SdkLine[0];
    assert p1[45] == SdkLine[36];
    assert QuoteFrom(p1, 9).Some?;
    assert MatchAt(p1, 0);
    FirstMatchIs(p1, 0);
    assert MatchValue(p1, 0)[0] == p1[9];
  }
}

=== FILE: naming.dfy ===
/** The new package name `process_apk_full` writes into the manifest: the chosen
    prefix, a '.', and either the caller's suffix or one derived from the APK's
    file name (lower-cased, alphanumeric characters only, at most 12 of them). */
module Naming {
  import opened Basics
  import opened Text
  import Prefixes

  /** The longest derived suffix. */
  const MaxSuffix: nat := 12

  // ---------------------------------------------------------------------------
  // Cleaning the file stem
  // ---------------------------------------------------------------------------

  /** `chars().filter(|c| c.is_alphanumeric())`. */
  function FilterAlnum(s: string): (r: string)
    ensures |r| <= |s|
    ensures forall i :: 0 <= i < |r| ==> IsAlnum(r[i])
    ensures (forall i :: 0 <= i < |s| ==> !IsUpper(s[i])) ==> forall i :: 0 <= i < |r| ==> !IsUpper(r[i])
  {
    if s == [] then []
    else (if IsAlnum(s[0]) then [s[0]] else []) + FilterAlnum(s[1..])
  }

  /** A lower-case letter or a digit: what a cleaned stem is made of. */
  predicate IsCleanChar(c: char) { IsLower(c) || IsDigit(c) }

  predicate IsClean(s: string) {
    forall i :: 0 <= i < |s| ==> IsCleanChar(s[i])
  }

  /** The file stem lower-cased with everything but letters and digits removed. */
  function CleanStem(stem: string): (r: string)
    ensures IsClean(r)
    ensures |r| <= |stem|
  {
    FilterAlnum(ToLower(stem))
  }

  lemma {:induction false} FilterAppend(a: string, b: string)
    ensures FilterAlnum(a + b) == FilterAlnum(a) + FilterAlnum(b)
  {
    if a != [] {
      assert (a + b)[0] == a[0];
      assert (a + b)[1..] == a[1..] + b;
      FilterAppend(a[1..], b);
    } else {
      assert a + b == b;
    }
  }

  lemma {:induction false} ToLowerAppend(a: string, b: string)
    ensures ToLower(a + b) == ToLower(a) + ToLower(b)
  {
  }

  /** Cleaning works character by character: the stem of a concatenation is the
      concatenation of the stems. */
  lemma {:induction false} CleanStemAppend(a: string, b: string)
    ensures CleanStem(a + b) == CleanStem(a) + CleanStem(b)
  {
    ToLowerAppend(a, b);
    FilterAppend(ToLower(a), ToLower(b));
  }

  /** One character of the stem: a letter or digit stays, lower-cased, and
      anything else goes. With CleanStemAppend this fixes the whole stem. */
  lemma {:induction false} CleanStemChar(c: char)
    ensures CleanStem([c]) == if IsAlnum(c) then [LowerChar(c)] else []
  {
    assert ToLower([c]) == [LowerChar(c)];
  }

  /** Cleaning a stem cleans its first character, then the rest. */
  lemma {:induction false} CleanStemCons(c: char, rest: string)
    ensures CleanStem([c] + rest) == (if IsAlnum(c) then [LowerChar(c)] else []) + CleanStem(rest)
  {
    CleanStemAppend([c], rest);
    CleanStemChar(c);
  }

  /** An upper-case letter is kept in lower case, not dropped: "MyApp" cleans to
      "myapp". */
  lemma {:induction false} CleanStemMyApp()
    ensures CleanStem("MyApp") == "myapp"
  {
    var l := ToLower("MyApp");
    assert l[0] == LowerChar('M') == 'm' && l[2] == LowerChar('A') == 'a';
    assert l == "myapp";
    FilterOfAlnum(l);
  }

  /** A stem that is already clean is left as it is. */
  lemma {:induction false} CleanStemOfClean(s: string)
    requires IsClean(s)
    ensures CleanStem(s) == s
  {
    assert ToLower(s) == s;
    FilterOfAlnum(s);
  }

  lemma {:induction false} FilterOfAlnum(s: string)
    requires forall i :: 0 <= i < |s| ==> IsAlnum(s[i])
    ensures FilterAlnum(s) == s
  {
    if s != [] {
      FilterOfAlnum(s[1..]);
    }
  }

  /** Cleaning twice is cleaning once. */
  lemma {:induction false} CleanStemIdempotent(stem: string)
    ensures CleanStem(CleanStem(stem)) == CleanStem(stem)
  {
    CleanStemOfClean(CleanStem(stem));
  }

  // ---------------------------------------------------------------------------
  // Truncation
  // ---------------------------------------------------------------------------

  /** The first `MaxSuffix` characters, or all of a shorter text. */
  function Truncated(clean: string): (r: string)
    ensures |r| <= MaxSuffix && |r| <= |clean|
    ensures r == clean[..|r|]
    ensures |r| == MaxSuffix || r == clean
  {
    if |clean| > MaxSuffix then clean[..MaxSuffix] else clean
  }

  /** The suffix derived from a file stem. */
  function DerivedSuffix(stem: string): (r: string)
    ensures IsClean(r) && |r| <= MaxSuffix && |r| <= |CleanStem(stem)|
    ensures r == CleanStem(stem)[..|r|]
    ensures |r| == MaxSuffix || r == CleanStem(stem)
  {
    var clean := CleanStem(stem);
    var r := Truncated(clean);
    assert forall i :: 0 <= i < |r| ==> r[i] == clean[i];
    r
  }

  /** The suffix used: a non-empty custom suffix as given, otherwise the derived one. */
  function Suffix(custom: Option<string>, stem: string): (r: string)
    ensures custom.Some? && custom.value != [] ==> r == custom.value
    ensures custom.None? || custom.value == [] ==> IsClean(r) && |r| <= MaxSuffix
    ensures custom.None? || custom.value == [] ==> r == DerivedSuffix(stem)
  {
    match custom
    case Some(s) => if s != [] then s else DerivedSuffix(stem)
    case None => DerivedSuffix(stem)
  }

  /** `format!("{}.{}", new_prefix, suffix)`. */
  function NewPackage(prefix: string, custom: Option<string>, stem: string): (r: string)
    ensures |r| == |prefix| + 1 + |Suffix(custom, stem)|
    ensures StartsWith(r, prefix + ".")
    ensures r[|prefix| + 1..] == Suffix(custom, stem)
  {
    prefix + "." + Suffix(custom, stem)
  }

  /** An empty custom suffix counts as none. */
  lemma {:induction false} EmptyCustomIsNone(prefix: string, stem: string)
    ensures NewPackage(prefix, Some(""), stem) == NewPackage(prefix, None, stem)
  {
  }

  /** A derived suffix never holds a '.', so it is the last segment of the new
      name, and the prefix is everything before it. */
  lemma {:induction false} DerivedSuffixIsLastSegment(prefix: string, stem: string)
    ensures '.' !in DerivedSuffix(stem)
    ensures NewPackage(prefix, None, stem)[|prefix| + 1..] == DerivedSuffix(stem)
    ensures NewPackage(prefix, None, stem)[|prefix|] == '.'
  {
    var r := DerivedSuffix(stem);
    assert forall i :: 0 <= i < |r| ==> r[i] != '.';
  }

  /** With a two-segment prefix and a suffix free of '.', a later scan of the
      device counts the renamed package under exactly that prefix. */
  lemma {:induction false} RenamedPackageCounted(a: string, b: string, suffix: string)
    requires '.' !in a && '.' !in b && '.' !in suffix
    ensures Prefixes.LinePrefix("package:" + a + "." + b + "." + suffix) == Some(a + "." + b)
  {
    var line := "package:" + a + "." + b + "." + suffix;
    var pkg := a + "." + b + "." + suffix;
    assert StartsWith(line, "package:");
    assert line[8..] == pkg;
    assert pkg[|a|] == '.';
    assert [a, b, suffix][1..] == [b, suffix];
    assert [b, suffix][1..] == [suffix];
    assert Join([b, suffix], '.') == b + "." + suffix;
    assert Join([a, b, suffix], '.') == a + "." + (b + "." + suffix);
    assert Join([a, b, suffix], '.') == pkg;
    SplitOfJoin([a, b, suffix], '.');
  }

  /** A stem with no letter or digit gives an empty suffix and a name ending in '.'. */
  lemma {:induction false} BlankStemTrailingDot(prefix: string, stem: string)
    requires forall i :: 0 <= i < |stem| ==> !IsAlnum(stem[i])
    ensures NewPackage(prefix, None, stem) == prefix + "."
  {
    assert forall i :: 0 <= i < |stem| ==> !IsAlnum(ToLower(stem)[i]);
    NoAlnumFiltered(ToLower(stem));
  }

  lemma {:induction false} NoAlnumFiltered(s: string)
    requires forall i :: 0 <= i < |s| ==> !IsAlnum(s[i])
    ensures FilterAlnum(s) == []
  {
    if s != [] {
      NoAlnumFiltered(s[1..]);
    }
  }

  // ---------------------------------------------------------------------------
  // The truncation as the source writes it: a byte offset into UTF-8 text
  // ---------------------------------------------------------------------------

  /** The number of bytes of `c` in UTF-8. */
  function Utf8Len(c: char): (n: nat)
    ensures 1 <= n <= 4
    ensures n == 1 <==> IsAsciiChar(c)
  {
    if c as int < 0x80 then 1
    else if c as int < 0x800 then 2
    else if c as int < 0x1_0000 then 3
    else 4
  }

  /** `str::len`: the length in bytes. */
  function ByteLen(s: string): (n: nat)
    ensures n >= |s|
  {
    if s == [] then 0 else Utf8Len(s[0]) + ByteLen(s[1..])
  }

  /** The number of characters that take up exactly the first `n` bytes, if
      byte `n` is a character boundary. */
  function BoundaryAt(s: string, n: nat): (r: Option<nat>)
    ensures r.Some? ==> r.value <= |s| && ByteLen(s[..r.value]) == n
  {
    if n == 0 then Some(0)
    else if s == [] || Utf8Len(s[0]) > n then None
    else match BoundaryAt(s[1..], n - Utf8Len(s[0]))
      case None => None
      case Some(k) =>
        assert s[..k + 1][1..] == s[1..][..k];
        Some(k + 1)
  }

  /** `if clean.len() > 12 { clean[..12] } else { clean }` on the bytes of the
      text; `None` is the panic of slicing inside a character. */
  function TruncatedAsWritten(clean: string): (r: Option<string>)
    ensures r.Some? ==> |r.value| <= |clean| && r.value == clean[..|r.value|]
  {
    if ByteLen(clean) > MaxSuffix then
      match BoundaryAt(clean, MaxSuffix)
      case None => None
      case Some(k) => Some(clean[..k])
    else Some(clean)
  }

  lemma {:induction false} ByteLenAscii(s: string)
    requires IsAscii(s)
    ensures ByteLen(s) == |s|
  {
    if s != [] {
      ByteLenAscii(s[1..]);
    }
  }

  lemma {:induction false} BoundaryAscii(s: string, n: nat)
    requires IsAscii(s) && n <= |s|
    ensures BoundaryAt(s, n) == Some(n)
  {
    if n > 0 {
      BoundaryAscii(s[1..], n - 1);
    }
  }

  /** On ASCII text, where bytes and characters coincide, the byte slice is the
      intended 12-character truncation. */
  lemma {:induction false} TruncationAgreesOnAscii(clean: string)
    requires IsAscii(clean)
    ensures TruncatedAsWritten(clean) == Some(Truncated(clean))
  {
    ByteLenAscii(clean);
    if |clean| > MaxSuffix {
      BoundaryAscii(clean, MaxSuffix);
    }
  }

  /** A stem such as "myapp应用宝" is all letters for Rust's `is_alphanumeric`,
      takes 14 bytes, and byte 12 falls inside its last character: the byte
      slice panics, while the 12-character truncation keeps the whole stem. */
  lemma MixedScriptStemPanics()
    ensures TruncatedAsWritten("myapp\U{5E94}\U{7528}\U{5B9D}") == None
    ensures Truncated("myapp\U{5E94}\U{7528}\U{5B9D}") == "myapp\U{5E94}\U{7528}\U{5B9D}"
  {
    var t7 := "\U{5B9D}";
    var t6 := "\U{7528}" + t7;
    var t5 := "\U{5E94}" + t6;
    var t4 := "p" + t5;
    var t3 := "p" + t4;
    var t2 := "a" + t3;
    var t1 := "y" + t2;
    var s := "m" + t1;
    assert s == "myapp\U{5E94}\U{7528}\U{5B9D}";
    assert t7[1..] == [] && t6[1..] == t7 && t5[1..] == t6 && t4[1..] == t5;
    assert t3[1..] == t4 && t2[1..] == t3 && t1[1..] == t2 && s[1..] == t1;
    assert ByteLen([]) == 0;
    assert ByteLen(t7) == 3;
    assert ByteLen(t6) == 6;
    assert ByteLen(t5) == 9;
    assert ByteLen(t4) == 10;
    assert ByteLen(t3) == 11;
    assert ByteLen(t2) == 12;
    assert ByteLen(t1) == 13;
    assert ByteLen(s) == 14;
    assert BoundaryAt(t7, 1) == None;
    assert BoundaryAt(t6, 4) == None;
    assert BoundaryAt(t5, 7) == None;
    assert BoundaryAt(t4, 8) == None;
    assert BoundaryAt(t3, 9) == None;
    assert BoundaryAt(t2, 10) == None;
    assert BoundaryAt(t1, 11) == None;
    assert BoundaryAt(s, 12) == None;
  }
}

=== FILE: pipeline.dfy ===
/** `process_apk_full`: decompile the APK with apktool, patch its manifest,
    rebuild, zipalign, sign, and optionally install it on a device. Each step
    is an outside effect; the model takes what each one reports as input and
    decides, as the command does, which steps run and what it answers. */
module Pipeline {
  import opened Basics
  import opened Text
  import opened Commands
  import Naming
  import Manifest

  // ---------------------------------------------------------------------------
  // Inputs and outputs
  // ---------------------------------------------------------------------------

  /** What the caller asks for. `stem` and `parent` are what `Path::file_stem`
      and `Path::parent` give for `apkPath`, after their fallbacks. */
  datatype Request = Request(
    apkPath: string,
    stem: string,
    parent: string,
    prefix: string,
    custom: Option<string>,
    device: Option<string>,
    installAfter: bool)

  /** What each outside effect reports: the five tool runs, reading the
      decompiled manifest (its text or an error), and writing it back (an
      error, if any). */
  datatype Outcomes = Outcomes(
    decompile: Run,
    read: Result<string, string>,
    write: Option<string>,
    rebuild: Run,
    align: Run,
    sign: Run,
    install: Run)

  /** The outside effects, with the arguments that tell them apart. */
  datatype Effect =
    | Decompile(apk: string)
    | ReadManifest
    | WriteManifest(content: string)
    | Rebuild(out: string)
    | Align(input: string, out: string)
    | Sign(input: string, out: string)
    | Install(device: string, apk: string)

  /** The values a result's message carries; the prose around them is left out. */
  datatype Message =
    | DecompileFailed(stderr: string, stdout: string)
    | RebuildFailed(stderr: string, stdout: string)
    | AlignFailed(stderr: string)
    | SignFailed(stderr: string)
    | Installed(package: string)
    | InstallFailed(stdout: string)
    | InstallNotRun(reason: string)
    | Completed(package: string)

  datatype ProcessResult = ProcessResult(
    success: bool,
    message: Message,
    outputPath: Option<string>,
    step: Option<string>)

  /** The command's `Err`: a tool that could not be started, or the manifest
      that could not be read or written. */
  datatype Failure =
    | DecompileNotRun(reason: string)
    | ReadFailed(reason: string)
    | WriteFailed(reason: string)
    | RebuildNotRun(reason: string)
    | AlignNotRun(reason: string)
    | SignNotRun(reason: string)

  /** The command's answer and the effects it caused, in order. */
  datatype Outcome = Outcome(result: Result<ProcessResult, Failure>, effects: seq<Effect>)

  // ---------------------------------------------------------------------------
  // Paths
  // ---------------------------------------------------------------------------

  /** `Path::join` of a relative file name onto a directory, with '/' as the separator. */
  function JoinPath(dir: string, name: string): (r: string)
    ensures |r| >= |name| && r[|r| - |name|..] == name
  {
    if dir == [] then name
    else if dir[|dir| - 1] == '/' then dir + name
    else dir + "/" + name
  }

  function Rebuilt(req: Request): string { JoinPath(req.parent, req.stem + "_rebuilt.apk") }
  function Aligned(req: Request): string { JoinPath(req.parent, req.stem + "_aligned.apk") }
  function Final(req: Request): string { JoinPath(req.parent, req.stem + "_fixed.apk") }

  /** The package name the manifest gets. */
  function NewPackage(req: Request): string {
    Naming.NewPackage(req.prefix, req.custom, req.stem)
  }

  /** Whether the command goes on to install: asked to, and given a device. */
  predicate WantsInstall(req: Request) {
    req.installAfter && req.device.Some?
  }

  /** A run that was started and exited with success. */
  predicate Succeeded(run: Run) {
    run.Exited? && run.success
  }

  // ---------------------------------------------------------------------------
  // The command, step by step as written
  // ---------------------------------------------------------------------------

  /** The effect `e` happened before everything in `o`. */
  function After(e: Effect, o: Outcome): (r: Outcome)
    ensures r.result == o.result && |r.effects| == |o.effects| + 1
  {
    Outcome(o.result, [e] + o.effects)
  }

  function Failed(message: Message, path: Option<string>, step: string): Result<ProcessResult, Failure> {
    Ok(ProcessResult(false, message, path, Some(step)))
  }

  /** The whole command. */
  function Process(req: Request, env: Outcomes): (o: Outcome)
    ensures |o.effects| >= 1 && o.effects[0] == Decompile(req.apkPath)
  {
    After(Decompile(req.apkPath),
      match env.decompile
      case SpawnFailed(e) => Outcome(Err(DecompileNotRun(e)), [])
      case Exited(ok, out, err) =>
        if !ok then Outcome(Failed(DecompileFailed(err, out), None, "decompile"), [])
        else PatchStep(req, env))
  }

  /** Read the manifest, patch it, write it back. */
  function PatchStep(req: Request, env: Outcomes): Outcome {
    After(ReadManifest,
      match env.read
      case Err(e) => Outcome(Err(ReadFailed(e)), [])
      case Ok(content) => WriteStep(req, env, content))
  }

  function WriteStep(req: Request, env: Outcomes, content: string): Outcome {
    After(WriteManifest(Manifest.PatchManifest(content, NewPackage(req))),
      match env.write
      case Some(e) => Outcome(Err(WriteFailed(e)), [])
      case None => RebuildStep(req, env))
  }

  function RebuildStep(req: Request, env: Outcomes): Outcome {
    After(Rebuild(Rebuilt(req)),
      match env.rebuild
      case SpawnFailed(e) => Outcome(Err(RebuildNotRun(e)), [])
      case Exited(ok, out, err) =>
        if !ok then Outcome(Failed(RebuildFailed(err, out), None, "rebuild"), [])
        else AlignStep(req, env))
  }

  function AlignStep(req: Request, env: Outcomes): Outcome {
    After(Align(Rebuilt(req), Aligned(req)),
      match env.align
      case SpawnFailed(e) => Outcome(Err(AlignNotRun(e)), [])
      case Exited(ok, _, err) =>
        if !ok then Outcome(Failed(AlignFailed(err), Some(Rebuilt(req)), "zipalign"), [])
        else SignStep(req, env))
  }

  function SignStep(req: Request, env: Outcomes): Outcome {
    After(Sign(Aligned(req), Final(req)),
      match env.sign
      case SpawnFailed(e) => Outcome(Err(SignNotRun(e)), [])
      case Exited(ok, _, err) =>
        if !ok then Outcome(Failed(SignFailed(err), Some(Aligned(req)), "sign"), [])
        else InstallStep(req, env))
  }

  /** Install when asked to and given a device; otherwise report completion. */
  function InstallStep(req: Request, env: Outcomes): Outcome {
    if req.installAfter && req.device.Some? then
      After(Install(req.device.value, Final(req)), Outcome(Ok(InstallReport(req, env.install)), []))
    else
      Outcome(Ok(ProcessResult(true, Completed(NewPackage(req)), Some(Final(req)), Some("complete"))), [])
  }

  /** The answer after an install attempt; a failure to start `adb` is reported,
      not raised. */
  function InstallReport(req: Request, run: Run): ProcessResult {
    match run
    case SpawnFailed(e) => ProcessResult(false, InstallNotRun(e), Some(Final(req)), Some("install"))
    case Exited(ok, out, _) =>
      if ok && Contains(out, "Success") then
        ProcessResult(true, Installed(NewPackage(req)), Some(Final(req)), Some("install"))
      else
        ProcessResult(false, InstallFailed(out), Some(Final(req)), Some("install"))
  }

  // ---------------------------------------------------------------------------
  // The same command as a list of stages stopped by the first failure
  // ---------------------------------------------------------------------------

  /** The stages before the optional install, in the order they run. */
  datatype Stage = DecompileStage | ReadStage | WriteStage | RebuildStage | AlignStage | SignStage

  const Stages: seq<Stage> := [DecompileStage, ReadStage, WriteStage, RebuildStage, AlignStage, SignStage]

  /** Whether a stage lets the command go on. */
  predicate Passes(env: Outcomes, s: Stage) {
    match s
    case DecompileStage => Succeeded(env.decompile)
    case ReadStage => env.read.Ok?
    case WriteStage => env.write.None?
    case RebuildStage => Succeeded(env.rebuild)
    case AlignStage => Succeeded(env.align)
    case SignStage => Succeeded(env.sign)
  }

  /** The text written back: the patched manifest, when one was read. */
  function Patched(req: Request, env: Outcomes): string {
    match env.read
    case Ok(content) => Manifest.PatchManifest(content, NewPackage(req))
    case Err(_) => []
  }

  /** The effect a stage causes. */
  function EffectOf(req: Request, env: Outcomes, s: Stage): Effect {
    match s
    case DecompileStage => Decompile(req.apkPath)
    case ReadStage => ReadManifest
    case WriteStage => WriteManifest(Patched(req, env))
    case RebuildStage => Rebuild(Rebuilt(req))
    case AlignStage => Align(Rebuilt(req), Aligned(req))
    case SignStage => Sign(Aligned(req), Final(req))
  }

  function EffectsOf(req: Request, env: Outcomes, ss: seq<Stage>): (r: seq<Effect>)
    ensures |r| == |ss|
    ensures forall k :: 0 <= k < |ss| ==> r[k] == EffectOf(req, env, ss[k])
  {
    if ss == [] then [] else [EffectOf(req, env, ss[0])] + EffectsOf(req, env, ss[1..])
  }

  /** What the command answers when stage `s` is the first that does not pass. */
  function Report(req: Request, env: Outcomes, s: Stage): Result<ProcessResult, Failure> {
    match s
    case DecompileStage =>
      if env.decompile.SpawnFailed? then Err(DecompileNotRun(env.decompile.reason))
      else Failed(DecompileFailed(env.decompile.stderr, env.decompile.stdout), None, "decompile")
    case ReadStage => Err(ReadFailed(if env.read.Err? then env.read.error else []))
    case WriteStage => Err(WriteFailed(if env.write.Some? then env.write.value else []))
    case RebuildStage =>
      if env.rebuild.SpawnFailed? then Err(RebuildNotRun(env.rebuild.reason))
      else Failed(RebuildFailed(env.rebuild.stderr, env.rebuild.stdout), None, "rebuild")
    case AlignStage =>
      if env.align.SpawnFailed? then Err(AlignNotRun(env.align.reason))
      else Failed(AlignFailed(env.align.stderr), Some(Rebuilt(req)), "zipalign")
    case SignStage =>
      if env.sign.SpawnFailed? then Err(SignNotRun(env.sign.reason))
      else Failed(SignFailed(env.sign.stderr), Some(Aligned(req)), "sign")
  }

  /** The position of the first stage that does not pass. */
  function FirstStop(env: Outcomes, ss: seq<Stage>): (r: Option<nat>)
    ensures r.Some? ==> r.value < |ss| && !Passes(env, ss[r.value])
    ensures r.Some? ==> forall k :: 0 <= k < r.value ==> Passes(env, ss[k])
    ensures r.None? ==> forall k :: 0 <= k < |ss| ==> Passes(env, ss[k])
  {
    if ss == [] then None
    else if !Passes(env, ss[0]) then Some(0)
    else match FirstStop(env, ss[1..])
      case None => None
      case Some(k) => Some(k + 1)
  }

  /** What happens once every stage has passed: the install, when wanted. */
  function Finish(req: Request, env: Outcomes): Outcome {
    if WantsInstall(req) then
      Outcome(Ok(InstallReport(req, env.install)), [Install(req.device.value, Final(req))])
    else
      Outcome(Ok(ProcessResult(true, Completed(NewPackage(req)), Some(Final(req)), Some("complete"))), [])
  }

  /** Running a list of stages: the first stage that does not pass decides the
      answer, and the effects are those of the stages up to and including it;
      when all pass, the command finishes. */
  function ReferenceOver(req: Request, env: Outcomes, ss: seq<Stage>): Outcome {
    match FirstStop(env, ss)
    case Some(k) => Outcome(Report(req, env, ss[k]), EffectsOf(req, env, ss[..k + 1]))
    case None => Outcome(Finish(req, env).result, EffectsOf(req, env, ss) + Finish(req, env).effects)
  }

  /** The command as a reference over its stages in order. */
  function Reference(req: Request, env: Outcomes): Outcome {
    ReferenceOver(req, env, Stages)
  }

  /** Running a list of stages one at a time. */
  function RunStages(req: Request, env: Outcomes, ss: seq<Stage>): Outcome {
    if ss == [] then Finish(req, env)
    else if !Passes(env, ss[0]) then Outcome(Report(req, env, ss[0]), [EffectOf(req, env, ss[0])])
    else After(EffectOf(req, env, ss[0]), RunStages(req, env, ss[1..]))
  }

  // ---------------------------------------------------------------------------
  // Properties
  // ---------------------------------------------------------------------------

  /** A first stage that does not pass is the one the reference reports. */
  lemma {:induction false} ReferenceStopsFirst(req: Request, env: Outcomes, ss: seq<Stage>)
    requires ss != [] && !Passes(env, ss[0])
    ensures ReferenceOver(req, env, ss) == Outcome(Report(req, env, ss[0]), [EffectOf(req, env, ss[0])])
  {
    assert FirstStop(env, ss) == Some(0);
    assert ss[..1] == [ss[0]];
    assert EffectsOf(req, env, [ss[0]]) == [EffectOf(req, env, ss[0])];
  }

  /** A first stage that passes contributes its effect ahead of the rest. */
  lemma {:induction false} ReferencePassesFirst(req: Request, env: Outcomes, ss: seq<Stage>)
    requires ss != [] && Passes(env, ss[0])
    ensures ReferenceOver(req, env, ss) == After(EffectOf(req, env, ss[0]), ReferenceOver(req, env, ss[1..]))
  {
    var e := EffectOf(req, env, ss[0]);
    FirstStopCons(env, ss);
    match FirstStop(env, ss[1..])
    case None =>
      assert EffectsOf(req, env, ss) == [e] + EffectsOf(req, env, ss[1..]);
    case Some(k) =>
      EffectsPrefixCons(req, env, ss, k);
  }

  /** Past a passing first stage, the first stop is one further on. */
  lemma {:induction false} FirstStopCons(env: Outcomes, ss: seq<Stage>)
    requires ss != [] && Passes(env, ss[0])
    ensures FirstStop(env, ss[1..]).None? ==> FirstStop(env, ss) == None
    ensures FirstStop(env, ss[1..]).Some? ==>
      FirstStop(env, ss) == Some(FirstStop(env, ss[1..]).value + 1) && ss[FirstStop(env, ss[1..]).value + 1] == ss[1..][FirstStop(env, ss[1..]).value]
  {
  }

  /** The effects up to a later stage start with the first stage's. */
  lemma {:induction false} EffectsPrefixCons(req: Request, env: Outcomes, ss: seq<Stage>, k: nat)
    requires k + 1 < |ss|
    ensures EffectsOf(req, env, ss[..k + 2]) == [EffectOf(req, env, ss[0])] + EffectsOf(req, env, ss[1..][..k + 1])
  {
    assert ss[..k + 2][1..] == ss[1..][..k + 1];
  }

  /** Running the stages one at a time is the first-failure reference. */
  lemma {:induction false} RunStagesIsReference(req: Request, env: Outcomes, ss: seq<Stage>)
    ensures RunStages(req, env, ss) == ReferenceOver(req, env, ss)
  {
    if ss == [] {
      assert EffectsOf(req, env, ss) == [];
    } else if !Passes(env, ss[0]) {
      ReferenceStopsFirst(req, env, ss);
    } else {
      RunStagesIsReference(req, env, ss[1..]);
      ReferencePassesFirst(req, env, ss);
    }
  }

  lemma {:induction false} SignIsStages(req: Request, env: Outcomes)
    ensures SignStep(req, env) == RunStages(req, env, [SignStage])
  {
    assert [SignStage][1..] == [];
  }

  lemma {:induction false} AlignIsStages(req: Request, env: Outcomes)
    ensures AlignStep(req, env) == RunStages(req, env, [AlignStage, SignStage])
  {
    SignIsStages(req, env);
    assert [AlignStage, SignStage][1..] == [SignStage];
  }

  lemma {:induction false} RebuildIsStages(req: Request, env: Outcomes)
    ensures RebuildStep(req, env) == RunStages(req, env, [RebuildStage, AlignStage, SignStage])
  {
    AlignIsStages(req, env);
    assert [RebuildStage, AlignStage, SignStage][1..] == [AlignStage, SignStage];
  }

  lemma {:induction false} WriteIsStages(req: Request, env: Outcomes)
    requires env.read.Ok?
    ensures WriteStep(req, env, env.read.value) == RunStages(req, env, [WriteStage, RebuildStage, AlignStage, SignStage])
  {
    RebuildIsStages(req, env);
    assert [WriteStage, RebuildStage, AlignStage, SignStage][1..] == [RebuildStage, AlignStage, SignStage];
  }

  lemma {:induction false} PatchIsStages(req: Request, env: Outcomes)
    ensures PatchStep(req, env) == RunStages(req, env, Stages[1..])
  {
    assert Stages[1..] == [ReadStage, WriteStage, RebuildStage, AlignStage, SignStage];
    assert Stages[1..][1..] == [WriteStage, RebuildStage, AlignStage, SignStage];
    if env.read.Ok? {
      WriteIsStages(req, env);
    }
  }

  /** The command as written is the first-failure reference: the first stage
      that does not pass decides the answer, no effect of a later stage
      happens, and when every stage passes the install is attempted exactly
      when it is wanted. */
  lemma {:induction false} ProcessIsReference(req: Request, env: Outcomes)
    ensures Process(req, env) == Reference(req, env)
  {
    PatchIsStages(req, env);
    assert Stages[0] == DecompileStage;
    RunStagesIsReference(req, env, Stages);
  }

  // ---------------------------------------------------------------------------
  // What the answer says
  // ---------------------------------------------------------------------------

  lemma {:induction false} StagesFacts()
    ensures |Stages| == 6
    ensures Stages[0] == DecompileStage && Stages[1] == ReadStage && Stages[2] == WriteStage
    ensures Stages[3] == RebuildStage && Stages[4] == AlignStage && Stages[5] == SignStage
  {
  }

  /** Stage `k` is the first that does not pass. */
  lemma {:induction false} StopsAt(env: Outcomes, k: nat)
    requires k < |Stages| && !Passes(env, Stages[k])
    requires forall j :: 0 <= j < k ==> Passes(env, Stages[j])
    ensures FirstStop(env, Stages) == Some(k)
  {
  }

  /** The `step` tag a failing tool stage reports. The manifest stages end in an
      error instead, so they have none. */
  function StepName(s: Stage): Option<string> {
    match s
    case DecompileStage => Some("decompile")
    case ReadStage => None
    case WriteStage => None
    case RebuildStage => Some("rebuild")
    case AlignStage => Some("zipalign")
    case SignStage => Some("sign")
  }

  /** The file a failing stage reports: the input it could not process, for the
      two stages that work on a rebuilt file; nothing before that. */
  function PathAfterFailure(req: Request, s: Stage): Option<string> {
    match s
    case AlignStage => Some(Rebuilt(req))
    case SignStage => Some(Aligned(req))
    case _ => None
  }

  /** The stage's tool could not be started. */
  predicate NotStarted(env: Outcomes, s: Stage) {
    match s
    case DecompileStage => env.decompile.SpawnFailed?
    case ReadStage => false
    case WriteStage => false
    case RebuildStage => env.rebuild.SpawnFailed?
    case AlignStage => env.align.SpawnFailed?
    case SignStage => env.sign.SpawnFailed?
  }

  /** The first stage that does not pass fixes the answer: an `Err` exactly when
      its tool could not be started or the manifest could not be read or
      written, and otherwise a failure tagged with that stage and reporting the
      file it was working on; its effect is the last one. */
  lemma {:induction false} FirstFailureDecides(req: Request, env: Outcomes)
    requires FirstStop(env, Stages).Some?
    ensures var k := FirstStop(env, Stages).value;
      var s := Stages[k];
      var o := Process(req, env);
      && (o.result.Err? <==> s == ReadStage || s == WriteStage || NotStarted(env, s))
      && (o.result.Ok? ==> o.result.value == ProcessResult(false, o.result.value.message, PathAfterFailure(req, s), StepName(s)))
      && |o.effects| == k + 1 && o.effects[k] == EffectOf(req, env, s)
  {
    ProcessIsReference(req, env);
    var k := FirstStop(env, Stages).value;
    assert Stages[..k + 1][k] == Stages[k];
  }

  /** When every stage passes the answer is `Ok` and names the signed file; it
      is a success exactly when no install was wanted, or the install exited
      with success and printed "Success"; the message then carries the new
      package name. */
  lemma {:induction false} AllStagesPassed(req: Request, env: Outcomes)
    requires FirstStop(env, Stages).None?
    ensures var o := Process(req, env);
      && o.result.Ok?
      && o.result.value.outputPath == Some(Final(req))
      && o.result.value.step == Some(if WantsInstall(req) then "install" else "complete")
      && (o.result.value.success <==>
            !WantsInstall(req) || (Succeeded(env.install) && Contains(env.install.stdout, "Success")))
      && (o.result.value.success ==> o.result.value.message.package == NewPackage(req))
  {
    ProcessIsReference(req, env);
  }

  /** Every stage passes exactly when none of the tools and file operations
      failed. */
  lemma {:induction false} NoStopMeansAllPassed(env: Outcomes)
    ensures FirstStop(env, Stages).None? <==>
      Succeeded(env.decompile) && env.read.Ok? && env.write.None?
      && Succeeded(env.rebuild) && Succeeded(env.align) && Succeeded(env.sign)
  {
    StagesFacts();
    if FirstStop(env, Stages).Some? {
      assert !Passes(env, Stages[FirstStop(env, Stages).value]);
    } else {
      assert Passes(env, Stages[0]) && Passes(env, Stages[1]) && Passes(env, Stages[2]);
      assert Passes(env, Stages[3]) && Passes(env, Stages[4]) && Passes(env, Stages[5]);
    }
  }

  /** An effect list that contains an install. */
  predicate Installs(effects: seq<Effect>) {
    exists k :: 0 <= k < |effects| && effects[k].Install?
  }

  /** The install runs only when asked for with a device and after every other
      stage passed, and then it is the last effect and installs the signed file
      on that device. */
  lemma {:induction false} InstallOnlyWhenWanted(req: Request, env: Outcomes)
    ensures Installs(Process(req, env).effects) <==> WantsInstall(req) && FirstStop(env, Stages).None?
    ensures Installs(Process(req, env).effects) ==>
      Process(req, env).effects[|Process(req, env).effects| - 1] == Install(req.device.value, Final(req))
  {
    ProcessIsReference(req, env);
    var o := Process(req, env);
    match FirstStop(env, Stages)
    case Some(k) =>
      NoInstallIn(req, env, Stages[..k + 1]);
    case None =>
      var e := EffectsOf(req, env, Stages);
      NoInstallIn(req, env, Stages);
      if WantsInstall(req) {
        assert o.effects == e + [Install(req.device.value, Final(req))];
        assert o.effects[|e|].Install?;
      } else {
        assert o.effects == e;
      }
  }

  /** No stage before the install is an install. */
  lemma {:induction false} NoInstallIn(req: Request, env: Outcomes, ss: seq<Stage>)
    ensures !Installs(EffectsOf(req, env, ss))
  {
    var e := EffectsOf(req, env, ss);
    forall k | 0 <= k < |e| ensures !e[k].Install? {
      assert e[k] == EffectOf(req, env, ss[k]);
    }
  }

  /** The manifest written back is the patched text of the one read, with the
      new package name. */
  lemma {:induction false} WrittenManifestIsPatched(req: Request, env: Outcomes, j: nat)
    requires j < |Process(req, env).effects| && Process(req, env).effects[j].WriteManifest?
    ensures env.read.Ok? && j == 2
    ensures Process(req, env).effects[j].content == Manifest.PatchManifest(env.read.value, NewPackage(req))
  {
    ProcessEffectAt(req, env, j);
    StagesFacts();
    assert Passes(env, Stages[1]);
  }

  /** Every effect but the install is that of a stage, reached because every
      stage before it passed. */
  lemma {:induction false} ProcessEffectAt(req: Request, env: Outcomes, j: nat)
    requires j < |Process(req, env).effects|
    ensures Process(req, env).effects[j].Install? ||
      (j < |Stages| && Process(req, env).effects[j] == EffectOf(req, env, Stages[j])
       && forall i :: 0 <= i < j ==> Passes(env, Stages[i]))
  {
    ProcessIsReference(req, env);
    match FirstStop(env, Stages)
    case Some(k) =>
      assert Stages[..k + 1][j] == Stages[j];
    case None =>
  }

  /** Two runs whose outcomes agree on a stage. */
  predicate SameAt(env: Outcomes, env2: Outcomes, s: Stage) {
    match s
    case DecompileStage => env.decompile == env2.decompile
    case ReadStage => env.read == env2.read
    case WriteStage => env.write == env2.write
    case RebuildStage => env.rebuild == env2.rebuild
    case AlignStage => env.align == env2.align
    case SignStage => env.sign == env2.sign
  }

  /** What the stages after the first failure would have reported changes
      nothing: two runs that agree up to and including it give the same answer
      and the same effects. */
  lemma {:induction false} LaterOutcomesIgnored(req: Request, env: Outcomes, env2: Outcomes)
    requires FirstStop(env, Stages).Some?
    requires forall j :: 0 <= j <= FirstStop(env, Stages).value ==> SameAt(env, env2, Stages[j])
    ensures Process(req, env2) == Process(req, env)
  {
    ProcessIsReference(req, env);
    ProcessIsReference(req, env2);
    ReferenceIgnoresLater(req, env, env2);
  }

  lemma {:induction false} ReferenceIgnoresLater(req: Request, env: Outcomes, env2: Outcomes)
    requires FirstStop(env, Stages).Some?
    requires forall j :: 0 <= j <= FirstStop(env, Stages).value ==> SameAt(env, env2, Stages[j])
    ensures Reference(req, env2) == Reference(req, env)
  {
    var k := FirstStop(env, Stages).value;
    forall j | 0 <= j <= k ensures Passes(env, Stages[j]) == Passes(env2, Stages[j]) {
      SameStage(req, env, env2, Stages[j]);
    }
    StopsAt(env2, k);
    SameStage(req, env, env2, Stages[k]);
    SameEffectsUpTo(req, env, env2, k);
  }

  /** Runs that agree on a stage agree on whether it passes and on what it reports. */
  lemma {:induction false} SameStage(req: Request, env: Outcomes, env2: Outcomes, s: Stage)
    requires SameAt(env, env2, s)
    ensures Passes(env, s) == Passes(env2, s)
    ensures Report(req, env, s) == Report(req, env2, s)
  {
  }

  lemma {:induction false} SameEffectsUpTo(req: Request, env: Outcomes, env2: Outcomes, k: nat)
    requires k < |Stages|
    requires forall j :: 0 <= j <= k ==> SameAt(env, env2, Stages[j])
    ensures EffectsOf(req, env, Stages[..k + 1]) == EffectsOf(req, env2, Stages[..k + 1])
  {
    StagesFacts();
    var ss := Stages[..k + 1];
    forall j | 0 <= j < |ss| ensures EffectOf(req, env, ss[j]) == EffectOf(req, env2, ss[j]) {
      assert ss[j] == Stages[j];
      if j == 2 {
        assert SameAt(env, env2, Stages[1]);
      }
    }
    EffectsAgree(req, env, env2, ss);
  }

  lemma {:induction false} EffectsAgree(req: Request, env: Outcomes, env2: Outcomes, ss: seq<Stage>)
    requires forall j :: 0 <= j < |ss| ==> EffectOf(req, env, ss[j]) == EffectOf(req, env2, ss[j])
    ensures EffectsOf(req, env, ss) == EffectsOf(req, env2, ss)
  {
    var a := EffectsOf(req, env, ss);
    var b := EffectsOf(req, env2, ss);
    assert forall j :: 0 <= j < |a| ==> a[j] == b[j];
  }

  /** Without an install the install's outcome changes nothing. */
  lemma {:induction false} InstallIgnoredUnlessWanted(req: Request, env: Outcomes, run: Run)
    requires !WantsInstall(req)
    ensures Process(req, env.(install := run)) == Process(req, env)
  {
    var env2 := env.(install := run);
    assert SignStep(req, env2) == SignStep(req, env);
    assert AlignStep(req, env2) == AlignStep(req, env);
    assert RebuildStep(req, env2) == RebuildStep(req, env);
  }

  /** The three files the command writes next to the APK are distinct. */
  lemma {:induction false} OutputPathsDistinct(req: Request)
    ensures Rebuilt(req) != Aligned(req) && Aligned(req) != Final(req) && Rebuilt(req) != Final(req)
  {
    var r := req.stem + "_rebuilt.apk";
    var a := req.stem + "_aligned.apk";
    var f := req.stem + "_fixed.apk";
    assert |JoinPath(req.parent, r)| == |JoinPath(req.parent, a)| == |JoinPath(req.parent, f)| + 2;
    var n := |JoinPath(req.parent, r)| - |r|;
    assert JoinPath(req.parent, r)[n + |req.stem| + 1] == r[|req.stem| + 1] == 'r';
    assert JoinPath(req.parent, a)[n + |req.stem| + 1] == a[|req.stem| + 1] == 'a';
  }
}

=== FILE: prefixes.dfy ===
/** `scan_trusted_prefixes`: counts the two-segment prefixes of the package names
    `pm list packages` prints, keeps the frequent non-system ones, ranks them by
    count, and puts two fixed recommended prefixes in front. */
module Prefixes {
  import opened Basics
  import opened Text
  import opened Sorting
  import opened Commands

  datatype TrustedPrefix = TrustedPrefix(prefix: string, count: int, source: string)

  /** Prefixes the scan never offers, matched with `starts_with`. */
  const SystemPrefixes: seq<string> := ["com.android", "com.google", "android.hardware", "vendor.mediatek"]

  const ChinaPost := TrustedPrefix("cn.chinapost", 999, "recommended")
  const Nlscan := TrustedPrefix("com.nlscan", 100, "recommended")

  // ---------------------------------------------------------------------------
  // The prefix of one listing line
  // ---------------------------------------------------------------------------

  /** The length of the first `c`-separated piece of `s`. */
  function PieceEnd(s: string, c: char): (n: nat)
    ensures n <= |s| && c !in s[..n] && (n == |s| || s[n] == c)
  {
    match IndexOf(s, c)
    case Some(i) => i
    case None => |s|
  }

  lemma {:induction false} SplitHead(s: string, c: char)
    ensures Split(s, c)[0] == s[..PieceEnd(s, c)]
    ensures |Split(s, c)| >= 2 <==> c in s
    ensures c in s ==> Split(s, c)[1] == s[PieceEnd(s, c) + 1..][..PieceEnd(s[PieceEnd(s, c) + 1..], c)]
  {
    match IndexOf(s, c)
    case None =>
    case Some(i) =>
      var rest := s[i + 1..];
      assert Split(s, c) == [s[..i]] + Split(rest, c);
      match IndexOf(rest, c)
      case None =>
      case Some(j) =>
  }

  /** `p` is what `format!("{}.{}", parts[0], parts[1])` gives for the pieces of
      `pkg`: the beginning of `pkg` up to, not including, its second '.', or all
      of `pkg` when it has only one. */
  predicate IsTwoSegmentPrefix(pkg: string, p: string) {
    && StartsWith(pkg, p)
    && (exists i :: 0 <= i < |p| && p[i] == '.' && '.' !in p[..i] && '.' !in p[i + 1..])
    && (|p| == |pkg| || pkg[|p|] == '.')
  }

  /** Cutting `s` at two consecutive '.'-pieces: the text up to the end of the
      second piece has exactly one '.', the one between the pieces. */
  lemma {:induction false} TwoPiecesShape(s: string, i: nat, j: nat)
    requires i < |s| && s[i] == '.' && '.' !in s[..i]
    requires i + 1 + j <= |s| && '.' !in s[i + 1..i + 1 + j]
    requires i + 1 + j == |s| || s[i + 1 + j] == '.'
    ensures IsTwoSegmentPrefix(s, s[..i + 1 + j])
  {
    var p := s[..i + 1 + j];
    assert p[i] == '.';
    assert p[..i] == s[..i];
    assert p[i + 1..] == s[i + 1..i + 1 + j];
  }

  /** The first two pieces of a name holding a '.', joined by '.', form its
      two-segment prefix. */
  lemma {:induction false} TwoPieces(pkg: string)
    requires '.' in pkg
    ensures |Split(pkg, '.')| >= 2
    ensures IsTwoSegmentPrefix(pkg, Split(pkg, '.')[0] + "." + Split(pkg, '.')[1])
  {
    SplitHead(pkg, '.');
    var parts := Split(pkg, '.');
    var i := PieceEnd(pkg, '.');
    var rest := pkg[i + 1..];
    var j := PieceEnd(rest, '.');
    assert parts[0] == pkg[..i];
    assert parts[1] == rest[..j];
    assert rest[..j] == pkg[i + 1..i + 1 + j];
    assert parts[0] + "." + parts[1] == pkg[..i + 1 + j];
    assert i + 1 + j == |pkg| || pkg[i + 1 + j] == '.' by {
      if i + 1 + j < |pkg| { assert pkg[i + 1 + j] == rest[j]; }
    }
    TwoPiecesShape(pkg, i, j);
  }

  /** The prefix a `package:` line contributes to the count, if any. */
  function LinePrefix(line: string): (r: Option<string>)
    ensures r.Some? <==> StartsWith(line, "package:") && '.' in line[8..]
    ensures r.Some? ==> IsTwoSegmentPrefix(line[8..], r.value)
  {
    if StartsWith(line, "package:") then
      var pkg := line[8..];
      var parts := Split(pkg, '.');
      SplitHead(pkg, '.');
      if |parts| >= 2 then
        TwoPieces(pkg);
        Some(parts[0] + "." + parts[1])
      else None
    else None
  }

  // ---------------------------------------------------------------------------
  // Counting
  // ---------------------------------------------------------------------------

  /** How many of `lines` contribute prefix `p`. */
  function Occurrences(lines: seq<string>, p: string): nat {
    if lines == [] then 0
    else Occurrences(lines[..|lines| - 1], p) + (if LinePrefix(lines[|lines| - 1]) == Some(p) then 1 else 0)
  }

  /** The counting loop: one map entry per prefix seen, holding how many lines
      contributed it. */
  method CountPrefixes(lines: seq<string>) returns (counts: map<string, int>)
    ensures forall p :: p in counts <==> Occurrences(lines, p) > 0
    ensures forall p :: p in counts ==> counts[p] == Occurrences(lines, p)
  {
    counts := map[];
    var i := 0;
    while i < |lines|
      invariant 0 <= i <= |lines|
      invariant forall p :: p in counts <==> Occurrences(lines[..i], p) > 0
      invariant forall p :: p in counts ==> counts[p] == Occurrences(lines[..i], p)
    {
      assert lines[..i + 1][..i] == lines[..i];
      match LinePrefix(lines[i]) {
        case Some(p) =>
          counts := counts[p := if p in counts then counts[p] + 1 else 1];
        case None =>
      }
      i := i + 1;
    }
    assert lines[..|lines|] == lines;
  }

  /** A line that is not a `package:` line, or whose name has no '.', adds nothing. */
  lemma {:induction false} NonContributingLine(lines: seq<string>, line: string, p: string)
    requires !StartsWith(line, "package:") || '.' !in line[8..]
    ensures Occurrences(lines + [line], p) == Occurrences(lines, p)
  {
    assert (lines + [line])[..|lines|] == lines;
  }

  // ---------------------------------------------------------------------------
  // Filtering and ranking
  // ---------------------------------------------------------------------------

  /** `prefixes.iter().any(|sys| p.starts_with(sys))`. */
  predicate StartsWithAny(p: string, prefixes: seq<string>) {
    prefixes != [] && (StartsWith(p, prefixes[0]) || StartsWithAny(p, prefixes[1..]))
  }

  predicate IsSystemPrefix(p: string) {
    StartsWithAny(p, SystemPrefixes)
  }

  /** The prefixes the scan offers from what it observed. */
  predicate Kept(counts: map<string, int>, p: string) {
    p in counts && counts[p] >= 2 && !IsSystemPrefix(p)
  }

  function CountOf(t: TrustedPrefix): int { t.count }

  /** Descending order on counts: a larger count sorts first. */
  function Larger(a: int, b: int): bool { a > b }

  /** The kept prefixes, as `device_scan` entries, in the map's iteration order. */
  function Observed(order: seq<string>, counts: map<string, int>): (r: seq<TrustedPrefix>)
    requires forall i :: 0 <= i < |order| ==> order[i] in counts
    ensures forall k :: 0 <= k < |r| ==>
      r[k].source == "device_scan" && Kept(counts, r[k].prefix) && r[k].count == counts[r[k].prefix]
  {
    if order == [] then []
    else if Kept(counts, order[0]) then
      [TrustedPrefix(order[0], counts[order[0]], "device_scan")] + Observed(order[1..], counts)
    else Observed(order[1..], counts)
  }

  /** Observed entries come from the iterated keys. */
  lemma {:induction false} ObservedFromOrder(order: seq<string>, counts: map<string, int>)
    requires forall i :: 0 <= i < |order| ==> order[i] in counts
    ensures forall k :: 0 <= k < |Observed(order, counts)| ==> Observed(order, counts)[k].prefix in order
  {
    if order != [] {
      var tail := order[1..];
      ObservedFromOrder(tail, counts);
      var rest := Observed(tail, counts);
      var r := Observed(order, counts);
      var here := if Kept(counts, order[0]) then [TrustedPrefix(order[0], counts[order[0]], "device_scan")] else [];
      assert r == here + rest;
      forall k | 0 <= k < |r| ensures r[k].prefix in order {
        if k >= |here| {
          assert r[k] == rest[k - |here|];
          assert rest[k - |here|].prefix in tail;
        }
      }
    }
  }

  /** Every kept key yields an observed entry. */
  lemma {:induction false} ObservedComplete(order: seq<string>, counts: map<string, int>, i: nat)
    requires forall j :: 0 <= j < |order| ==> order[j] in counts
    requires i < |order| && Kept(counts, order[i])
    ensures exists k :: 0 <= k < |Observed(order, counts)| && Observed(order, counts)[k].prefix == order[i]
  {
    var tail := order[1..];
    var rest := Observed(tail, counts);
    var r := Observed(order, counts);
    var here := if Kept(counts, order[0]) then [TrustedPrefix(order[0], counts[order[0]], "device_scan")] else [];
    assert r == here + rest;
    if i == 0 {
      assert r[0].prefix == order[0];
    } else {
      assert order[i] == tail[i - 1];
      ObservedComplete(tail, counts, i - 1);
      var k :| 0 <= k < |rest| && rest[k].prefix == tail[i - 1];
      assert r[|here| + k] == rest[k];
    }
  }

  /** Entries with distinct prefixes, as the iteration over a map's keys gives. */
  predicate DistinctPrefixes(s: seq<TrustedPrefix>) {
    forall i, j :: 0 <= i < j < |s| ==> s[i].prefix != s[j].prefix
  }

  predicate Distinct<T(==)>(s: seq<T>) {
    forall i, j :: 0 <= i < j < |s| ==> s[i] != s[j]
  }

  lemma {:induction false} ObservedDistinct(order: seq<string>, counts: map<string, int>)
    requires forall i :: 0 <= i < |order| ==> order[i] in counts
    requires Distinct(order)
    ensures DistinctPrefixes(Observed(order, counts))
  {
    if order != [] {
      var tail := order[1..];
      assert Distinct(tail) by {
        forall i, j | 0 <= i < j < |tail| ensures tail[i] != tail[j] {
          assert tail[i] == order[i + 1] && tail[j] == order[j + 1];
        }
      }
      ObservedDistinct(tail, counts);
      ObservedFromOrder(tail, counts);
      var rest := Observed(tail, counts);
      forall k | 0 <= k < |rest| ensures rest[k].prefix != order[0] {
        var n :| 0 <= n < |tail| && tail[n] == rest[k].prefix;
        assert tail[n] == order[n + 1];
      }
      ObservedCons(order, counts);
      var here := if Kept(counts, order[0]) then [TrustedPrefix(order[0], counts[order[0]], "device_scan")] else [];
      DistinctPrefixesCons(here, rest, order[0]);
    }
  }

  /** The entry for the first key, if kept, then those for the rest. */
  lemma {:induction false} ObservedCons(order: seq<string>, counts: map<string, int>)
    requires order != [] && forall i :: 0 <= i < |order| ==> order[i] in counts
    ensures Observed(order, counts)
      == (if Kept(counts, order[0]) then [TrustedPrefix(order[0], counts[order[0]], "device_scan")] else [])
         + Observed(order[1..], counts)
  {
  }

  /** At most one entry for `p` in front of distinct entries without `p`. */
  lemma {:induction false} DistinctPrefixesCons(here: seq<TrustedPrefix>, rest: seq<TrustedPrefix>, p: string)
    requires |here| <= 1 && (here != [] ==> here[0].prefix == p)
    requires forall k :: 0 <= k < |rest| ==> rest[k].prefix != p
    requires DistinctPrefixes(rest)
    ensures DistinctPrefixes(here + rest)
  {
    var r := here + rest;
    forall i, j | 0 <= i < j < |r| ensures r[i].prefix != r[j].prefix {
      if i < |here| {
        assert r[j] == rest[j - |here|];
      } else {
        assert r[i] == rest[i - |here|] && r[j] == rest[j - |here|];
      }
    }
  }

  /** A sequence has no repeated element exactly when no element occurs twice. */
  lemma {:induction false} DistinctMultiset<T>(s: seq<T>)
    ensures Distinct(s) <==> forall x :: multiset(s)[x] <= 1
  {
    if s != [] {
      var t := s[1..];
      DistinctMultiset(t);
      assert s == [s[0]] + t;
      assert multiset(s) == multiset{s[0]} + multiset(t);
      if Distinct(s) {
        assert s[0] !in t by {
          forall k | 0 <= k < |t| ensures t[k] != s[0] { assert t[k] == s[k + 1]; }
        }
        assert multiset(t)[s[0]] == 0;
        assert Distinct(t) by {
          forall i, j | 0 <= i < j < |t| ensures t[i] != t[j] { assert t[i] == s[i + 1] && t[j] == s[j + 1]; }
        }
      } else {
        var i, j :| 0 <= i < j < |s| && s[i] == s[j];
        if i == 0 {
          assert t[j - 1] == s[j];
          assert s[0] in multiset(t);
          assert multiset(s)[s[0]] >= 2;
        } else {
          assert t[i - 1] == s[i] && t[j - 1] == s[j];
          assert !Distinct(t);
          var x :| multiset(t)[x] > 1;
          assert multiset(s)[x] > 1;
        }
      }
    }
  }

  lemma {:induction false} DistinctPermutation<T>(a: seq<T>, b: seq<T>)
    requires multiset(a) == multiset(b)
    requires Distinct(a)
    ensures Distinct(b)
  {
    DistinctMultiset(a);
    DistinctMultiset(b);
  }

  lemma {:induction false} NonIncreasing(s: seq<TrustedPrefix>)
    requires Sorted(s, CountOf, Larger)
    ensures forall i, j :: 0 <= i < j < |s| ==> s[j].count <= s[i].count
  {
    if |s| > 1 {
      var init := s[..|s| - 1];
      assert forall i :: 0 <= i < |init| ==> init[i] == s[i];
      assert Sorted(init, CountOf, Larger);
      NonIncreasing(init);
      forall i, j | 0 <= i < j < |s| ensures s[j].count <= s[i].count {
        if j == |s| - 1 && i < j - 1 {
          assert s[j].count <= s[j - 1].count;
          assert init[j - 1].count <= init[i].count;
        }
      }
    }
  }

  /** Every observed entry survives the sort, so every kept prefix is offered. */
  lemma {:induction false} RankComplete(counts: map<string, int>, order: seq<string>, sorted: seq<TrustedPrefix>, p: string)
    requires p in order
    requires forall q :: q in order ==> q in counts
    requires multiset(sorted) == multiset(Observed(order, counts))
    requires Kept(counts, p)
    ensures exists m :: 0 <= m < |sorted| && sorted[m].prefix == p
  {
    var observed := Observed(order, counts);
    var n :| 0 <= n < |order| && order[n] == p;
    ObservedComplete(order, counts, n);
    var k :| 0 <= k < |observed| && observed[k].prefix == p;
    var e := observed[k];
    assert e in multiset(sorted);
    var m :| 0 <= m < |sorted| && sorted[m] == e;
  }

  /** Every sorted entry came from the observed ones. */
  lemma {:induction false} RankSound(counts: map<string, int>, order: seq<string>, sorted: seq<TrustedPrefix>)
    requires forall q :: q in order ==> q in counts
    requires multiset(sorted) == multiset(Observed(order, counts))
    ensures forall m :: 0 <= m < |sorted| ==>
      sorted[m].source == "device_scan" && Kept(counts, sorted[m].prefix) && sorted[m].count == counts[sorted[m].prefix]
  {
    var observed := Observed(order, counts);
    forall m | 0 <= m < |sorted|
      ensures sorted[m].source == "device_scan" && Kept(counts, sorted[m].prefix) && sorted[m].count == counts[sorted[m].prefix]
    {
      assert sorted[m] in multiset(observed);
      var k :| 0 <= k < |observed| && observed[k] == sorted[m];
    }
  }

  /** The list the scan returns, from the counts and the order in which the map
      yields its keys (which the source leaves to the hash map). */
  function Rank(counts: map<string, int>, order: seq<string>): (r: seq<TrustedPrefix>)
    requires forall p :: p in counts <==> p in order
    requires Distinct(order)
    ensures |r| >= 2 && r[0] == ChinaPost && r[1] == Nlscan
    ensures forall i :: 2 <= i < |r| ==>
      r[i].source == "device_scan" && Kept(counts, r[i].prefix) && r[i].count == counts[r[i].prefix]
    ensures forall p :: Kept(counts, p) ==> exists i :: 2 <= i < |r| && r[i].prefix == p
    ensures forall i, j :: 2 <= i < j < |r| ==> r[j].count <= r[i].count
    ensures forall i, j :: 2 <= i < j < |r| ==> r[i].prefix != r[j].prefix
  {
    var observed := Observed(order, counts);
    var sorted := SortBy(observed, CountOf, Larger);
    var r := [ChinaPost, Nlscan] + sorted;
    RankTail(counts, order, sorted, r);
    r
  }

  lemma {:induction false} ChinaPostNotSystem()
    ensures !IsSystemPrefix("cn.chinapost")
  {
    var p := "cn.chinapost";
    var sys := SystemPrefixes;
    assert sys[1..][1..][1..][1..] == [];
    assert p[..|sys[0]|][1] == 'n' != sys[0][1];
    assert p[..|sys[1]|][1] == 'n' != sys[1][1];
    assert |sys[2]| > |p| && |sys[3]| > |p|;
  }

  /** The recommended entries are not merged with observed ones: a device with
      two or more `cn.chinapost` packages gets that prefix a second time. */
  lemma {:induction false} RecommendedNotDeduplicated(counts: map<string, int>, order: seq<string>)
    requires forall p :: p in counts <==> p in order
    requires Distinct(order)
    requires "cn.chinapost" in counts && counts["cn.chinapost"] >= 2
    ensures Rank(counts, order)[0].prefix == "cn.chinapost"
    ensures exists i :: 2 <= i < |Rank(counts, order)| && Rank(counts, order)[i] == TrustedPrefix("cn.chinapost", counts["cn.chinapost"], "device_scan")
  {
    var r := Rank(counts, order);
    ChinaPostNotSystem();
    assert Kept(counts, "cn.chinapost");
    var i :| 2 <= i < |r| && r[i].prefix == "cn.chinapost";
  }

  lemma {:induction false} RankTail(counts: map<string, int>, order: seq<string>, sorted: seq<TrustedPrefix>, r: seq<TrustedPrefix>)
    requires forall p :: p in counts <==> p in order
    requires Distinct(order)
    requires Sorted(sorted, CountOf, Larger)
    requires multiset(sorted) == multiset(Observed(order, counts))
    requires r == [ChinaPost, Nlscan] + sorted
    ensures forall i :: 2 <= i < |r| ==>
      r[i].source == "device_scan" && Kept(counts, r[i].prefix) && r[i].count == counts[r[i].prefix]
    ensures forall p :: Kept(counts, p) ==> exists i :: 2 <= i < |r| && r[i].prefix == p
    ensures forall i, j :: 2 <= i < j < |r| ==> r[j].count <= r[i].count
    ensures forall i, j :: 2 <= i < j < |r| ==> r[i].prefix != r[j].prefix
  {
    RankTailSound(counts, order, sorted, r);
    RankTailComplete(counts, order, sorted, r);
    ObservedDistinct(order, counts);
    SortedDistinctPrefixes(Observed(order, counts), sorted);
    RankTailOrdered(sorted, r);
  }

  lemma {:induction false} RankTailSound(counts: map<string, int>, order: seq<string>, sorted: seq<TrustedPrefix>, r: seq<TrustedPrefix>)
    requires forall p :: p in order ==> p in counts
    requires multiset(sorted) == multiset(Observed(order, counts))
    requires r == [ChinaPost, Nlscan] + sorted
    ensures forall i :: 2 <= i < |r| ==>
      r[i].source == "device_scan" && Kept(counts, r[i].prefix) && r[i].count == counts[r[i].prefix]
  {
    RankSound(counts, order, sorted);
    forall i | 2 <= i < |r|
      ensures r[i].source == "device_scan" && Kept(counts, r[i].prefix) && r[i].count == counts[r[i].prefix]
    {
      assert r[i] == sorted[i - 2];
    }
  }

  lemma {:induction false} RankTailOrdered(sorted: seq<TrustedPrefix>, r: seq<TrustedPrefix>)
    requires Sorted(sorted, CountOf, Larger)
    requires DistinctPrefixes(sorted)
    requires r == [ChinaPost, Nlscan] + sorted
    ensures forall i, j :: 2 <= i < j < |r| ==> r[j].count <= r[i].count
    ensures forall i, j :: 2 <= i < j < |r| ==> r[i].prefix != r[j].prefix
  {
    NonIncreasing(sorted);
    forall i, j | 2 <= i < j < |r|
      ensures r[j].count <= r[i].count && r[i].prefix != r[j].prefix
    {
      assert r[i] == sorted[i - 2] && r[j] == sorted[j - 2];
    }
  }

  lemma {:induction false} RankTailComplete(counts: map<string, int>, order: seq<string>, sorted: seq<TrustedPrefix>, r: seq<TrustedPrefix>)
    requires forall p :: p in counts <==> p in order
    requires multiset(sorted) == multiset(Observed(order, counts))
    requires r == [ChinaPost, Nlscan] + sorted
    ensures forall p :: Kept(counts, p) ==> exists i :: 2 <= i < |r| && r[i].prefix == p
  {
    forall p | Kept(counts, p) ensures exists i :: 2 <= i < |r| && r[i].prefix == p {
      assert p in order;
      RankComplete(counts, order, sorted, p);
      var m :| 0 <= m < |sorted| && sorted[m].prefix == p;
      assert r[m + 2] == sorted[m];
    }
  }

  /** Entries of one prefix are equal, so distinct entries have distinct prefixes. */
  lemma {:induction false} SortedDistinctPrefixes(observed: seq<TrustedPrefix>, sorted: seq<TrustedPrefix>)
    requires DistinctPrefixes(observed)
    requires multiset(sorted) == multiset(observed)
    ensures DistinctPrefixes(sorted)
  {
    assert Distinct(observed);
    DistinctPermutation(observed, sorted);
    forall i, j | 0 <= i < j < |sorted| ensures sorted[i].prefix != sorted[j].prefix {
      assert sorted[i] in multiset(observed) && sorted[j] in multiset(observed);
      var a :| 0 <= a < |observed| && observed[a] == sorted[i];
      var b :| 0 <= b < |observed| && observed[b] == sorted[j];
      assert a != b;
    }
  }

  // ---------------------------------------------------------------------------
  // The command
  // ---------------------------------------------------------------------------

  /** Some order in which the hash map yields its keys; the source does not fix one. */
  method IterationOrder(counts: map<string, int>) returns (order: seq<string>)
    ensures forall p :: p in counts <==> p in order
    ensures Distinct(order)
  {
    order := [];
    var left := counts.Keys;
    while left != {}
      invariant forall p :: p in counts <==> p in order || p in left
      invariant forall i :: 0 <= i < |order| ==> order[i] !in left
      invariant Distinct(order)
      decreases |left|
    {
      var k :| k in left;
      order := order + [k];
      left := left - {k};
    }
  }

  /** A prefix the scan offers from a listing: at least two packages carry it
      and it does not start with a system prefix. */
  predicate Offered(lines: seq<string>, p: string) {
    Occurrences(lines, p) >= 2 && !IsSystemPrefix(p)
  }

  /** `scan_trusted_prefixes` given the outcome of `pm list packages`. The exit
      status of the command is not looked at. */
  method ScanTrustedPrefixes(run: Run) returns (r: Result<seq<TrustedPrefix>, string>)
    ensures r.Err? <==> run.SpawnFailed?
    ensures run.SpawnFailed? ==> r == Err(run.reason)
    ensures r.Ok? ==> |r.value| >= 2 && r.value[0] == ChinaPost && r.value[1] == Nlscan
    ensures r.Ok? ==> forall i :: 2 <= i < |r.value| ==>
      r.value[i].source == "device_scan" && Offered(Lines(run.stdout), r.value[i].prefix)
      && r.value[i].count == Occurrences(Lines(run.stdout), r.value[i].prefix)
    ensures r.Ok? ==> forall p :: Offered(Lines(run.stdout), p) ==>
      exists i :: 2 <= i < |r.value| && r.value[i].prefix == p
    ensures r.Ok? ==> forall i, j :: 2 <= i < j < |r.value| ==>
      r.value[j].count <= r.value[i].count && r.value[i].prefix != r.value[j].prefix
  {
    if run.SpawnFailed? {
      return Err(run.reason);
    }
    var lines := Lines(run.stdout);
    var counts := CountPrefixes(lines);
    var order := IterationOrder(counts);
    var ranked := Rank(counts, order);
    assert forall p :: Kept(counts, p) <==> Offered(lines, p);
    r := Ok(ranked);
  }
}

=== FILE: sorting.dfy ===
/** A stable insertion sort on sequences, parameterised by a sort key and a strict
    order on keys. Rust's `slice::sort_by` is a stable sort, so for a given input
    it has exactly one correct output: the elements ordered by key, with the
    elements of equal key in their input order. `SortBy` computes that output. */
module Sorting {

  /** A strict order never relates two keys both ways (so never a key to itself). */
  ghost predicate Asymmetric<K(!new)>(lt: (K, K) -> bool) {
    forall a, b :: lt(a, b) ==> !lt(b, a)
  }

  /** No element has a key strictly before the key of the element preceding it. */
  predicate Sorted<T, K>(s: seq<T>, key: T -> K, lt: (K, K) -> bool) {
    forall i :: 0 < i < |s| ==> !lt(key(s[i]), key(s[i - 1]))
  }

  /** The elements of `s` whose key is `k`, in their order in `s`. */
  function Keep<T, K(==)>(s: seq<T>, key: T -> K, k: K): (r: seq<T>)
    ensures |r| <= |s|
  {
    if s == [] then []
    else (if key(s[0]) == k then [s[0]] else []) + Keep(s[1..], key, k)
  }

  /** Places `x` in front of the first element whose key is not strictly before
      the key of `x`. */
  function Insert<T, K(!new)>(x: T, s: seq<T>, key: T -> K, lt: (K, K) -> bool): (r: seq<T>)
    requires Asymmetric(lt)
    requires Sorted(s, key, lt)
    ensures Sorted(r, key, lt)
    ensures multiset(r) == multiset(s) + multiset{x}
    ensures r != [] && (r[0] == x || (s != [] && r[0] == s[0]))
  {
    if s == [] then [x]
    else if lt(key(s[0]), key(x)) then
      var tail := Insert(x, s[1..], key, lt);
      assert s == [s[0]] + s[1..];
      [s[0]] + tail
    else
      [x] + s
  }

  /** Stable sort of `xs` by `key`, ascending with respect to `lt`. */
  function SortBy<T, K(!new)>(xs: seq<T>, key: T -> K, lt: (K, K) -> bool): (r: seq<T>)
    requires Asymmetric(lt)
    ensures Sorted(r, key, lt)
    ensures multiset(r) == multiset(xs)
    ensures |r| == |xs|
  {
    if xs == [] then []
    else
      assert xs == [xs[0]] + xs[1..];
      Insert(xs[0], SortBy(xs[1..], key, lt), key, lt)
  }

  lemma {:induction false} KeepCons<T, K>(a: T, s: seq<T>, key: T -> K, k: K)
    ensures Keep([a] + s, key, k) == (if key(a) == k then [a] else []) + Keep(s, key, k)
  {
    assert ([a] + s)[1..] == s;
  }

  /** An element of another key than `x` can be put in front of both sides. */
  lemma {:induction false} KeepPast<T, K>(a: T, tail: seq<T>, rest: seq<T>, x: T, key: T -> K, k: K)
    requires key(a) != key(x)
    requires Keep(tail, key, k) == (if key(x) == k then [x] else []) + Keep(rest, key, k)
    ensures Keep([a] + tail, key, k) == (if key(x) == k then [x] else []) + Keep([a] + rest, key, k)
  {
    KeepCons(a, tail, key, k);
    KeepCons(a, rest, key, k);
  }

  /** Inserting `x` adds it to the elements of its own key, in front. */
  lemma {:induction false} InsertKeep<T, K(!new)>(x: T, s: seq<T>, key: T -> K, lt: (K, K) -> bool, k: K)
    requires Asymmetric(lt)
    requires Sorted(s, key, lt)
    ensures Keep(Insert(x, s, key, lt), key, k) == (if key(x) == k then [x] else []) + Keep(s, key, k)
  {
    if s == [] {
      KeepCons(x, [], key, k);
    } else if lt(key(s[0]), key(x)) {
      InsertKeep(x, s[1..], key, lt, k);
      KeepPast(s[0], Insert(x, s[1..], key, lt), s[1..], x, key, k);
      assert [s[0]] + s[1..] == s;
    } else {
      KeepCons(x, s, key, k);
    }
  }

  /** Stability: for every key, the elements with that key appear in the sorted
      output in the same order as in the input. */
  lemma {:induction false} SortStable<T, K(!new)>(xs: seq<T>, key: T -> K, lt: (K, K) -> bool, k: K)
    requires Asymmetric(lt)
    ensures Keep(SortBy(xs, key, lt), key, k) == Keep(xs, key, k)
  {
    if xs != [] {
      SortStable(xs[1..], key, lt, k);
      InsertKeep(xs[0], SortBy(xs[1..], key, lt), key, lt, k);
    }
  }
}

=== FILE: text.dfy ===
/** ASCII character classes and the handful of Rust `str` operations the backend
    relies on: `lines`, `split`, `split_whitespace`, `trim`, `starts_with`,
    `find`, `rfind` and `contains`. Every string is a `seq<char>`; positions are
    character positions, which coincide with Rust's byte offsets on ASCII text. */
module Text {
  import opened Basics

  // ---------------------------------------------------------------------------
  // Character classes (the ASCII part of Rust's Unicode predicates)
  // ---------------------------------------------------------------------------

  /** `char::is_whitespace` restricted to ASCII: tab, LF, VT, FF, CR and space. */
  predicate IsSpace(c: char) {
    c == ' ' || c == '\t' || c == '\n' || c == '\r' || c == '\U{0B}' || c == '\U{0C}'
  }

  predicate IsUpper(c: char) { 'A' <= c <= 'Z' }

  predicate IsLower(c: char) { 'a' <= c <= 'z' }

  predicate IsDigit(c: char) { '0' <= c <= '9' }

  /** `char::is_alphanumeric` restricted to ASCII. */
  predicate IsAlnum(c: char) { IsUpper(c) || IsLower(c) || IsDigit(c) }

  predicate IsAsciiChar(c: char) { c as int < 128 }

  predicate IsAscii(s: string) {
    forall i :: 0 <= i < |s| ==> IsAsciiChar(s[i])
  }

  /** `char::to_lowercase` on an ASCII character. */
  function LowerChar(c: char): (r: char)
    ensures !IsUpper(r)
    ensures IsAlnum(r) <==> IsAlnum(c)
    ensures IsAsciiChar(c) ==> IsAsciiChar(r)
  {
    if IsUpper(c) then (c as int + 32) as char else c
  }

  /** `str::to_lowercase` on ASCII text. */
  function ToLower(s: string): (r: string)
    ensures |r| == |s|
    ensures forall i :: 0 <= i < |s| ==> r[i] == LowerChar(s[i])
  {
    seq(|s|, i requires 0 <= i < |s| => LowerChar(s[i]))
  }

  // ---------------------------------------------------------------------------
  // Prefixes, search and containment
  // ---------------------------------------------------------------------------

  /** `str::starts_with` with a string pattern. */
  predicate StartsWith(s: string, p: string) {
    |p| <= |s| && s[..|p|] == p
  }

  /** First index at or after `from` where `pat` occurs. */
  function FindFrom(s: string, pat: string, from: nat): (r: Option<nat>)
    requires from <= |s|
    decreases |s| - from
    ensures r.Some? ==> from <= r.value <= |s| && StartsWith(s[r.value..], pat)
    ensures r.Some? ==> forall j :: from <= j < r.value ==> !StartsWith(s[j..], pat)
    ensures r.None? ==> forall j :: from <= j <= |s| ==> !StartsWith(s[j..], pat)
  {
    if StartsWith(s[from..], pat) then Some(from)
    else if from == |s| then None
    else FindFrom(s, pat, from + 1)
  }

  /** `str::find` with a string pattern: the leftmost occurrence. */
  function Find(s: string, pat: string): (r: Option<nat>)
    ensures r.Some? ==> r.value <= |s| && StartsWith(s[r.value..], pat)
    ensures r.Some? ==> forall j :: 0 <= j < r.value ==> !StartsWith(s[j..], pat)
    ensures r.None? ==> forall j :: 0 <= j <= |s| ==> !StartsWith(s[j..], pat)
  {
    FindFrom(s, pat, 0)
  }

  /** `str::contains` with a string pattern. */
  predicate Contains(s: string, pat: string) {
    Find(s, pat).Some?
  }

  /** An occurrence of `pat` anywhere in `s` makes `Contains` true. */
  lemma {:induction false} ContainsAt(s: string, pat: string, j: nat)
    requires j <= |s| && StartsWith(s[j..], pat)
    ensures Contains(s, pat)
  {
  }

  /** An occurrence inside either half of a concatenation is an occurrence in the whole. */
  lemma {:induction false} ContainsInConcat(a: string, b: string, pat: string)
    requires Contains(a, pat) || Contains(b, pat)
    ensures Contains(a + b, pat)
  {
    if Contains(a, pat) {
      var j := Find(a, pat).value;
      assert (a + b)[j..][..|pat|] == a[j..][..|pat|];
      ContainsAt(a + b, pat, j);
    } else {
      var j := Find(b, pat).value;
      assert (a + b)[|a| + j..] == b[j..];
      ContainsAt(a + b, pat, |a| + j);
    }
  }

  /** First index of character `c`. */
  function IndexOf(s: string, c: char): (r: Option<nat>)
    ensures r.Some? ==> r.value < |s| && s[r.value] == c && c !in s[..r.value]
    ensures r.None? ==> c !in s
  {
    if |s| == 0 then None
    else if s[0] == c then Some(0)
    else match IndexOf(s[1..], c)
      case None => None
      case Some(i) =>
        assert s[..i + 1] == [s[0]] + s[1..][..i];
        Some(i + 1)
  }

  /** `str::rfind` with a character pattern: the last index of `c`. */
  function LastIndexOf(s: string, c: char): (r: Option<nat>)
    ensures r.Some? ==> r.value < |s| && s[r.value] == c && c !in s[r.value + 1..]
    ensures r.None? ==> c !in s
  {
    if |s| == 0 then None
    else if s[|s| - 1] == c then Some(|s| - 1)
    else
      var r := LastIndexOf(s[..|s| - 1], c);
      if r.Some? then
        assert s[r.value + 1..] == s[..|s| - 1][r.value + 1..] + [s[|s| - 1]];
        r
      else
        assert s == s[..|s| - 1] + [s[|s| - 1]];
        None
  }

  // ---------------------------------------------------------------------------
  // Trimming and whitespace splitting
  // ---------------------------------------------------------------------------

  /** The number of whitespace characters `s` starts with. */
  function LeadingSpaces(s: string): (n: nat)
    ensures n <= |s|
    ensures forall i :: 0 <= i < n ==> IsSpace(s[i])
    ensures n == |s| || !IsSpace(s[n])
  {
    if |s| > 0 && IsSpace(s[0]) then 1 + LeadingSpaces(s[1..]) else 0
  }

  /** The length of `s` without its trailing whitespace. */
  function UntrailedLength(s: string): (n: nat)
    ensures n <= |s|
    ensures forall i :: n <= i < |s| ==> IsSpace(s[i])
    ensures n == 0 || !IsSpace(s[n - 1])
  {
    if |s| > 0 && IsSpace(s[|s| - 1]) then UntrailedLength(s[..|s| - 1]) else |s|
  }

  /** The length of the longest whitespace-free prefix of `s`. */
  function WordLength(s: string): (n: nat)
    ensures n <= |s|
    ensures forall i :: 0 <= i < n ==> !IsSpace(s[i])
    ensures n == |s| || IsSpace(s[n])
  {
    if |s| > 0 && !IsSpace(s[0]) then 1 + WordLength(s[1..]) else 0
  }

  /** `str::trim_start`: drops leading whitespace. */
  function TrimStart(s: string): string {
    s[LeadingSpaces(s)..]
  }

  /** `str::trim_end`: drops trailing whitespace. */
  function TrimEnd(s: string): string {
    s[..UntrailedLength(s)]
  }

  /** `str::trim`: drops whitespace at both ends. */
  function Trim(s: string): string {
    TrimEnd(TrimStart(s))
  }

  /** A text is blank for `trim` exactly when it is blank for `trim_start`,
      that is, when it holds only whitespace. */
  lemma {:induction false} TrimBlank(s: string)
    ensures Trim(s) == [] <==> TrimStart(s) == []
    ensures TrimStart(s) == [] <==> forall i :: 0 <= i < |s| ==> IsSpace(s[i])
  {
    var t := TrimStart(s);
    if t != [] {
      assert !IsSpace(t[0]);
      assert UntrailedLength(t) > 0;
    }
  }

  /** A text with no whitespace at either end is its own trim. */
  lemma {:induction false} TrimUnpadded(w: string)
    requires w == [] || (!IsSpace(w[0]) && !IsSpace(w[|w| - 1]))
    ensures Trim(w) == w
  {
    if w != [] {
      assert LeadingSpaces(w) == 0;
      assert TrimStart(w) == w;
      assert UntrailedLength(w) == |w|;
    }
  }

  /** A non-empty run of non-whitespace characters. */
  predicate IsWord(w: string) {
    w != [] && forall k :: 0 <= k < |w| ==> !IsSpace(w[k])
  }

  /** `str::split_whitespace`: the maximal whitespace-free runs, in order. */
  function SplitWhitespace(s: string): seq<string>
    decreases |s|
  {
    var t := TrimStart(s);
    if t == [] then [] else
      var n := WordLength(t);
      [t[..n]] + SplitWhitespace(t[n..])
  }

  // ---------------------------------------------------------------------------
  // Lines and character splitting
  // ---------------------------------------------------------------------------

  /** Drops one trailing carriage return. */
  function DropCR(s: string): (r: string)
    ensures s == r || s == r + ['\r']
  {
    if |s| > 0 && s[|s| - 1] == '\r' then s[..|s| - 1] else s
  }

  /** `str::lines`: the text split at every LF; a line ended by CR LF loses the CR;
      a final line ending is optional, so no empty line follows a trailing LF. */
  function Lines(s: string): (r: seq<string>)
    decreases |s|
    ensures forall i :: 0 <= i < |r| ==> '\n' !in r[i]
    ensures s == [] <==> r == []
  {
    if s == [] then []
    else match IndexOf(s, '\n')
      case None => [s]
      case Some(i) =>
        assert forall k :: 0 <= k < |DropCR(s[..i])| ==> DropCR(s[..i])[k] == s[k];
        [DropCR(s[..i])] + Lines(s[i + 1..])
  }

  /** A line `Lines` can give back unchanged: no LF inside, no CR at the end. */
  predicate IsPlainLine(l: string) {
    '\n' !in l && (l == [] || l[|l| - 1] != '\r')
  }

  /** Terminates every line with LF and concatenates them. */
  function UnLines(ls: seq<string>): string {
    if ls == [] then [] else ls[0] + "\n" + UnLines(ls[1..])
  }

  /** `Lines` undoes `UnLines`. */
  lemma {:induction false} LinesOfUnLines(ls: seq<string>)
    requires forall i :: 0 <= i < |ls| ==> IsPlainLine(ls[i])
    ensures Lines(UnLines(ls)) == ls
  {
    if ls != [] {
      var s := UnLines(ls);
      assert s == ls[0] + ("\n" + UnLines(ls[1..]));
      assert s[|ls[0]|] == '\n';
      assert s[..|ls[0]|] == ls[0];
      assert IndexOf(s, '\n') == Some(|ls[0]|);
      assert s[|ls[0]| + 1..] == UnLines(ls[1..]);
      LinesOfUnLines(ls[1..]);
    }
  }

  /** `str::split` on one character: the pieces between occurrences of `c`. */
  function Split(s: string, c: char): (r: seq<string>)
    decreases |s|
    ensures |r| >= 1
    ensures forall i :: 0 <= i < |r| ==> c !in r[i]
  {
    match IndexOf(s, c)
    case None => [s]
    case Some(i) => [s[..i]] + Split(s[i + 1..], c)
  }

  /** `slice::join` with a one-character separator. */
  function Join(parts: seq<string>, c: char): string
    requires |parts| >= 1
  {
    if |parts| == 1 then parts[0] else parts[0] + [c] + Join(parts[1..], c)
  }

  /** Joining the pieces of a split gives the text back. */
  lemma {:induction false} JoinOfSplit(s: string, c: char)
    ensures Join(Split(s, c), c) == s
    decreases |s|
  {
    match IndexOf(s, c)
    case None =>
    case Some(i) =>
      var rest := Split(s[i + 1..], c);
      assert Split(s, c) == [s[..i]] + rest;
      assert ([s[..i]] + rest)[1..] == rest;
      JoinOfSplit(s[i + 1..], c);
      assert s == s[..i] + [c] + s[i + 1..];
  }

  /** The first occurrence is the one with none before it. */
  lemma {:induction false} IndexOfIs(s: string, c: char, i: nat)
    requires i < |s| && s[i] == c && c !in s[..i]
    ensures IndexOf(s, c) == Some(i)
  {
  }

  /** Splitting a join of separator-free pieces gives the pieces back. */
  lemma {:induction false} SplitOfJoin(parts: seq<string>, c: char)
    requires |parts| >= 1
    requires forall i :: 0 <= i < |parts| ==> c !in parts[i]
    ensures Split(Join(parts, c), c) == parts
  {
    if |parts| > 1 {
      var s := Join(parts, c);
      var n := |parts[0]|;
      var rest := Join(parts[1..], c);
      assert s == parts[0] + [c] + rest;
      assert s[..n] == parts[0];
      IndexOfIs(s, c, n);
      assert s[n + 1..] == rest;
      assert Split(s, c) == [parts[0]] + Split(rest, c);
      SplitOfJoin(parts[1..], c);
      assert parts == [parts[0]] + parts[1..];
    }
  }
}
